=== FILE: README.md ===
# Weather app core in Dafny

A model of the core of a small weather application: a FastAPI backend with
a Streamlit dashboard. The model covers:

- the hybrid date-range endpoint `range_weather` and its `_merge_daily` helper;
- the saved-query endpoints (create, read, partial update, delete);
- the request schemas and the end-after-start validator;
- the Markdown table printer of the database inspection tool;
- the dashboard's pure helpers: the weather-code icon table, the XML export,
  the PDF cell truncation and the trimming of stored timestamps.

Conventions of the model:

- **Dates** are integer day numbers.
- **`today`** is a parameter, read once per call.
- **The geocoder and the two Open-Meteo fetchers** (archive and forecast) are
  functions passed in the `Collaborators` datatype.
- **A run of the range endpoint** records every fetch it made, with the inclusive
  day range it asked for. This lets the dispatch decisions be stated as contracts.
- **The database** is a `map<int, Record>`. Every endpoint that can write (create,
  patch, delete) returns the store after the call; the read returns only the
  record or the 404. A failing call returns the store unchanged, as an exception that
  leaves the session uncommitted does.
- **A raised exception** becomes an `Error`:
  - an `HTTPException` becomes `Http(status, detail)`;
  - a pydantic validation error becomes `Invalid(detail)`;
  - a failed upstream request becomes `Upstream(source)`.

Files:

| file | module | models |
|---|---|---|
| basics.dfy | Basics | `Option`, `Result`, `Error` and the error constants |
| text.dfy | Text | Python `str.strip`, `str.isspace`, `sep.join` |
| schemas.dfy | Schemas | `RangeRequest` and its validator; `RecordCreate` and `RecordUpdate` |
| daily_merge.dfy | DailyMerge | the daily series and `_merge_daily` |
| range_policy.dfy | RangePolicy | `range_weather`: geocode, range check, three-way dispatch |
| records.dfy | Records | the `/records` endpoints |
| markdown_table.dfy | MarkdownTable | `rows_to_markdown` |
| weather_icons.dfy | WeatherIcons | `WEATHER_MAP` and `icon_and_label_from_code` |
| record_export.dfy | RecordExport | `to_xml`, the PDF cell truncation, `created_at` trimming |

Two behaviours of the code are stated as lemmas rather than claimed as
defects.

**The merge can misalign columns.** The merge joins the archive's and the
forecast's series column by column, and only the "time" column drops repeated
dates. The merged series keeps one value per date if:

- both sides report the same metrics, and
- they share no date (`DailyMerge.MergePreservesAlignment`).

These conditions are sufficient, not necessary. Each of the two ways they can
fail breaks alignment on its own:

- A metric that only the forecast reports, merged with a non-empty archive
  series that shares no date with it, comes out shorter than "time"
  (`DailyMerge.MissingMetricBreaksAlignment`). The archive requests three metrics
  and the forecast five, so in a split range `weathercode` and
  `windspeed_10m_max` are such metrics.
- A forecast date the archive already holds is dropped from "time", while the
  readings of every metric both sides report are kept whole. Such a metric then
  has more readings than dates (`DailyMerge.OverlapBreaksAlignment`).

**Two rules on the order of the dates.**

- `range_weather` checks `end < start` and answers 400. A `RangeRequest`, though,
  has already refused such a range in its validator. So the 400 answer is never
  reached through the schema (`RangePolicy.ValidatedRequestNeverBadRange`).
- A partial update checks the order only when it supplies an end date. Moving
  only the start date past the stored end is accepted when no refetch is asked
  for. With a refetch, the rebuilt `RangeRequest` fails validation
  (`Records.StartOnlyPatchSkipsRangeCheck`).

## Model

| member | source | states |
|---|---|---|
| Text.Strip | weather-app/backend/app/routers/records.py:29 | the stripped location is no longer than the input and neither starts nor ends with a whitespace character (Python's `isspace` set) |
| Text.StripIsInfix | weather-app/backend/app/routers/records.py:48 | `strip` removes exactly a leading and a trailing run of whitespace; what remains is the contiguous middle of the input |
| Text.StripIdempotent | weather-app/backend/app/routers/records.py:48 | stripping an already stripped location changes nothing |
| Schemas.CheckDates | weather-app/backend/app/schemas.py:10-21 | the validator accepts exactly when `start_date` is absent or not after `end_date`, returns the end date unchanged, and otherwise fails with the end-on/after-start message |
| Schemas.MakeRangeRequest | weather-app/backend/app/schemas.py:5-21 | a range request can be built exactly when start <= end (equal dates accepted), holding the given fields |
| Schemas.CreateDefaults | weather-app/backend/app/schemas.py:32-40 | a creation body defaults `kind` to "range" and the name, coordinates and payload to absent |
| Schemas.UpdateDefaults | weather-app/backend/app/schemas.py:56-62 | an update body defaults every field to absent and `refetch` to true |
| DailyMerge.FilterNotIn | weather-app/backend/app/routers/weather.py:71 | the forecast dates kept are exactly those the archive lacks, each with its forecast multiplicity |
| DailyMerge.MergeTime | weather-app/backend/app/routers/weather.py:71 | the merged dates start with the archive dates, hold exactly the dates of either side, and a date on both sides keeps only its archive copies |
| DailyMerge.MergeDaily | weather-app/backend/app/routers/weather.py:64-72 | the merged keys are the union of both sides' keys; every non-time column is the archive column followed by the forecast column (a missing key counting as empty), so its length is the sum; the time column is `MergeTime` |
| DailyMerge.MergeTimeNoDuplicates | weather-app/backend/app/routers/weather.py:71 | if neither side repeats a date, the merged dates repeat none |
| DailyMerge.MergeTimeAscending | weather-app/backend/app/routers/weather.py:71 | ascending archive and forecast dates, with every new forecast date after every archive date, merge into ascending dates |
| DailyMerge.MergeWithEmpty | weather-app/backend/app/routers/weather.py:65-70 | an empty or missing series on either side leaves the other unchanged |
| DailyMerge.MergePreservesAlignment | weather-app/backend/app/routers/weather.py:64-72 | two aligned series with the same metrics and no shared date merge into an aligned series whose length is the sum |
| DailyMerge.FilterShrinks | weather-app/backend/app/routers/weather.py:71 | a forecast date the archive already holds makes the kept forecast dates strictly fewer than the forecast dates |
| DailyMerge.MissingMetricBreaksAlignment | weather-app/backend/app/routers/weather.py:64-72 | for any two aligned series sharing no date, with a non-empty archive side, a metric only the forecast reports comes out shorter than the merged dates, so the merge is not aligned |
| DailyMerge.OverlapBreaksAlignment | weather-app/backend/app/routers/weather.py:64-72 | for any two aligned series, once a forecast date is already in the archive, a metric both sides report has more readings than the merged dates, so the merge is not aligned |
| DailyMerge.BoundaryDayMergedOnce | weather-app/backend/app/routers/weather.py:71 | an archive run of days first..mid and a forecast run mid..last merge into the run first..last: the shared day once, every day in order (e.g. today-5..today-1 with today-1..today+5) |
| DailyMerge.DateRunsApart | weather-app/backend/app/routers/weather.py:71 | two runs of dates, one ending before the other begins, share no date, so the filter keeps all of the later one |
| RangePolicy.Choose | weather-app/backend/app/routers/weather.py:80-89 | for start <= end the three branches are exclusive and exhaustive: archive exactly when end < today, forecast exactly when today <= start, split exactly when start < today <= end |
| RangePolicy.RangeWeather | weather-app/backend/app/routers/weather.py:34-91 | a geocode miss answers 404 before anything else and fetches nothing; an inverted range fetches nothing and answers 400; a past range makes one archive call over exactly [start, end]; a future range one forecast call over exactly [start, end]; a straddling range asks the archive for [start, today-1], then the forecast for [today, end]; it makes one call exactly when the archive failed, and with two calls it fails exactly when the forecast failed, naming the forecast; a single-service answer succeeds exactly when its fetch did and is then that service's response with the location, otherwise an error naming the service; a split success holds only the location and the merged series |
| RangePolicy.TilesCoverOnce | weather-app/backend/app/routers/weather.py:84-89 | adjacent non-empty sub-ranges from start to end ask for every day of [start, end], no other day, and no day twice |
| RangePolicy.CallsRespectToday | weather-app/backend/app/routers/weather.py:80-89 | every archive call asks only for days before today and every forecast call only for today and later |
| RangePolicy.SuccessCoversRangeOnce | weather-app/backend/app/routers/weather.py:74-91 | a successful run's calls tile [start, end]: every requested day is fetched exactly once, each service at most once |
| RangePolicy.SplitMergesBothHalves | weather-app/backend/app/routers/weather.py:84-91 | a successful straddling run answers the location and the merge of the archive's and the forecast's daily series, and nothing else |
| RangePolicy.ValidatedRequestNeverBadRange | weather-app/backend/app/routers/weather.py:77-78 | a request that passed the schema validator never receives the endpoint's own 400 answer |
| Records.GetRecord | weather-app/backend/app/routers/records.py:15-20 | a stored id returns its record; any other id fails with 404 "Record not found" |
| Records.CreateRecord | weather-app/backend/app/routers/records.py:22-38 | an inverted range fails validation and stores nothing; any failure stores nothing; a valid range succeeds exactly when the range answer does, fails with the same error, and stores that answer as the payload; a success stores one new record under the new id, of kind "range", with the stripped location, the given dates and the creation time |
| Records.ApplyEdits | weather-app/backend/app/routers/records.py:46-58 | the edits fail with 400 exactly when an end date is supplied and falls before the resulting start date; otherwise they yield the edited record |
| Records.Refetch | weather-app/backend/app/routers/records.py:60-68 | an inverted stored range fails validation; a valid one succeeds exactly when the range answer for the stored location and dates does, fails with the same error, and stores that answer as the payload; a success sets name and coordinates from the payload's resolved location and changes no edited field |
| Records.PatchRecord | weather-app/backend/app/routers/records.py:40-73 | an absent id answers 404 and changes nothing; any failure changes nothing; a success replaces only the patched record; edits rejected by the end-before-start check answer 400 and commit nothing; edits that pass without a refetch always succeed and commit exactly the edited record; with a refetch, an inverted edited range fails validation, and a valid one succeeds exactly when the range answer for the edited location and dates does, fails with the same error, and stores the edited record with name, coordinates and payload taken from that answer |
| Records.Edited | weather-app/backend/app/routers/records.py:47-56 | definition of the field edits; its contract is stated by `Records.ApplyEdits` and `Records.PatchFieldRules` |
| Records.WantsRefetch | weather-app/backend/app/routers/records.py:61 | definition of the refetch condition (refetch asked, kind "range", both dates set); its effect is stated by `Records.PatchRecord` |
| Records.DeleteRecord | weather-app/backend/app/routers/records.py:75-81 | an absent id answers 404 and changes nothing; otherwise exactly that id is removed and every other record is unchanged |
| Records.WritesAreVisible | weather-app/backend/app/routers/records.py:40-73 | after a successful patch, reading the id returns the patched record and every other id reads as before |
| Records.DeleteIsSelective | weather-app/backend/app/routers/records.py:75-81 | after a delete the id reads as not found and every other id reads as before |
| Records.CreateIgnoresClientFields | weather-app/backend/app/routers/records.py:22-38 | the client's kind, name, coordinates and payload have no effect on creation |
| Records.CreateStoresResolvedLocation | weather-app/backend/app/routers/records.py:26-36 | a created record holds the geocoded name and coordinates of the range answer, and the answer itself as payload |
| Records.EmptyPatchChangesNothing | weather-app/backend/app/routers/records.py:46-73 | a patch supplying nothing and declining the refetch returns the stored record and leaves the store as it was |
| Records.StartOnlyPatchSkipsRangeCheck | weather-app/backend/app/routers/records.py:53-62 | a start date moved past the stored end date is stored when no refetch is asked for; with a refetch of a "range" record the patch fails validation and stores nothing |
| Records.RefetchOverridesSuppliedName | weather-app/backend/app/routers/records.py:49-68 | after a refetch the stored name is the geocoder's for the stored location, whatever name the patch supplied |
| Records.RejectedPatchCommitsNothing | weather-app/backend/app/routers/records.py:55-58 | a supplied end date before the resulting start date answers 400 and commits none of the patch's edits |
| Records.PatchFieldRules | weather-app/backend/app/routers/records.py:46-68 | an absent field keeps its stored value, a supplied one replaces it (the location stripped); the creation time never changes; without a refetch, name, coordinates and payload change only through a supplied name |
| MarkdownTable.Widen | weather-app/backend/tools/inspect_db.py:23-26 | one row widens each column to its cell's printed length if that is longer, and never narrows a column |
| MarkdownTable.ColumnWidths | weather-app/backend/tools/inspect_db.py:22-26 | each width is at least its header's length and every cell's printed length in that column, and equals one of them |
| MarkdownTable.LJust | weather-app/backend/tools/inspect_db.py:29 | a padded cell keeps its text as a prefix, is padded with spaces, and is as long as the larger of its text and the width |
| MarkdownTable.RowsToMarkdown | weather-app/backend/tools/inspect_db.py:20-34 | the table is produced exactly when no row is longer than the header row (a longer row raises an index error) |
| MarkdownTable.FormatRow | weather-app/backend/tools/inspect_db.py:28-29 | definition of `fmt_row`; its width is stated by `MarkdownTable.FormatRowWidth` and its cells by `MarkdownTable.CellsHaveColumnWidth` |
| MarkdownTable.Separator | weather-app/backend/tools/inspect_db.py:32 | definition of the separator line; its width is stated by `MarkdownTable.SeparatorWidth` |
| MarkdownTable.CellsHaveColumnWidth | weather-app/backend/tools/inspect_db.py:29 | every rendered cell is exactly as wide as its column |
| MarkdownTable.FormatRowWidth | weather-app/backend/tools/inspect_db.py:28-29 | a full row renders as a line of sum(widths) + 3n + 1 characters |
| MarkdownTable.SeparatorWidth | weather-app/backend/tools/inspect_db.py:32 | the separator, column i holding widths[i] dashes, has the same width |
| MarkdownTable.TableLines | weather-app/backend/tools/inspect_db.py:31-34 | the table is the header line, the separator, then one line per row, joined by newlines; with no rows it ends in a newline |
| MarkdownTable.TableLinesEquallyWide | weather-app/backend/tools/inspect_db.py:20-34 | with full rows, the header, the separator and every body line are equally wide |
| MarkdownTable.SameTextSameWidths | weather-app/backend/tools/inspect_db.py:22-26 | column widths depend on a cell only through its printed text, and rows that fit still fit |
| MarkdownTable.SameTextSameTable | weather-app/backend/tools/inspect_db.py:25-29 | widths and output depend on a cell only through its printed text, so NULL and the empty string print alike |
| WeatherIcons.Lookup | weather-app/frontend/app.py:39-43 | a code no entry holds gives the question mark and "Unknown"; otherwise the icon and caption of the first entry holding it |
| WeatherIcons.IconAndLabel | weather-app/frontend/app.py:39-43 | definition of `icon_and_label_from_code` as `Lookup` over the table; its contract is stated by `WeatherIcons.IconOfAnyHoldingEntry` and `WeatherIcons.UnknownExactlyOutsideTable` |
| WeatherIcons.EntryInBand | weather-app/frontend/app.py:23-38 | each entry of the table holds only codes in its own band and a caption other than "Unknown" |
| WeatherIcons.BandedIsDisjoint | weather-app/frontend/app.py:23-38 | entries whose codes lie in ascending, separate bands share no code |
| WeatherIcons.WeatherMapDisjoint | weather-app/frontend/app.py:23-38 | no weather code belongs to two entries of the table |
| WeatherIcons.IconOfAnyHoldingEntry | weather-app/frontend/app.py:23-43 | a code gets the icon and caption of whichever entry holds it, independent of entry order |
| WeatherIcons.UnknownExactlyOutsideTable | weather-app/frontend/app.py:39-43 | the caption is "Unknown" exactly for codes in no entry |
| WeatherIcons.IconExamples | weather-app/frontend/app.py:24-36 | code 0 is "Clear sky" and code 95 is "Thunderstorm" |
| WeatherIcons.UnknownExample | weather-app/frontend/app.py:43 | code 4 gives the unknown icon and caption |
| RecordExport.Escape | weather-app/frontend/app.py:449-454 | escaped text holds no raw `<` or `>` |
| RecordExport.EscapedAmpersandsAreEntities | weather-app/frontend/app.py:454 | every `&` of escaped text begins `&amp;`, `&lt;` or `&gt;` |
| RecordExport.EscapeRoundTrip | weather-app/frontend/app.py:454 | unescaping escaped text gives the original value back |
| RecordExport.FieldLine | weather-app/frontend/app.py:454 | a field line starts with four spaces and the opening tag of its key |
| RecordExport.RecordLines | weather-app/frontend/app.py:452-455 | a record is an opening tag line, one line per field in order, and a closing tag line |
| RecordExport.ToXml | weather-app/frontend/app.py:448-457 | the document starts with `<records>` and ends with `</records>` |
| RecordExport.FieldLinesAreNotTags | weather-app/frontend/app.py:452-455 | each record contributes exactly one `<record>` line and one `</record>` line |
| RecordExport.XmlShape | weather-app/frontend/app.py:450-456 | the document is joined from 2 + sum of (2 + fields) parts, with exactly one `<record>` part and one `</record>` part per row |
| RecordExport.EscapeKeepsNewlines | weather-app/frontend/app.py:454 | escaping neither adds nor removes a newline |
| RecordExport.FieldLineNewlines | weather-app/frontend/app.py:454 | a field part holds twice its key's newlines plus its value's, so it is one document line exactly when neither holds a newline |
| RecordExport.XmlDocumentLines | weather-app/frontend/app.py:448-457 | when no key or value holds a newline, the document has exactly 2 + sum of (2 + fields) lines |
| RecordExport.FitCell | weather-app/frontend/app.py:475 | text within the limit is unchanged; longer text becomes its first `limit` characters and an ellipsis; the result is at most limit + 1 long |
| RecordExport.FitCellIdempotent | weather-app/frontend/app.py:475 | fitting an already fitted cell changes nothing |
| RecordExport.PdfCharLimits | weather-app/frontend/app.py:468-475 | the nine column widths give character limits 16, 57, 54, 54, 25, 25, 28, 35, 35 |
| RecordExport.BeforeDot | weather-app/frontend/app.py:422 | `split(".")[0]` is the longest dot-free prefix of its input |
| RecordExport.DisplayTimestamp | weather-app/frontend/app.py:422 | the shown timestamp has no `T` and no `.`, is no longer than the stored one, is the stored text with `T` shown as a space, and stops only at a dot or the end |
| RecordExport.DisplayTimestampIdempotent | weather-app/frontend/app.py:235 | trimming a trimmed timestamp changes nothing |
| RecordExport.DisplayTimestampCutsAtFirstDot | weather-app/frontend/app.py:422 | the shown timestamp is the stored text up to its first dot, with `T` shown as a space |
| RecordExport.IsoTimestampShown | weather-app/frontend/app.py:235 | an ISO timestamp `<date>T<time>.<fraction>` is shown as `<date> <time>` |

## Left out

- The HTTP layer and the upstream services are left out. The `requests` calls to
  Open-Meteo, their URLs, parameters, timeouts and `raise_for_status` are
  collaborator functions. A fetch either answers a response or fails; the kind of
  exception and the HTTP status it would produce are not modelled.
- The geocoder `base_geocode` is a collaborator returning a location or nothing.
  Its own network failures are not modelled; `weather_utils.py` is not part of
  this model.
- The other routes of the weather router (geocode, current, forecast, IP lookup)
  are thin wrappers around the same collaborators and are not modelled.
- An upstream response is its "daily" object plus its other top-level fields,
  kept as opaque text. An upstream top-level "resolved" key is not modelled; in
  Python it would overwrite the geocoded location in `{"resolved": g, **payload}`.
  A "daily" value that is neither an object nor null is not modelled either.
- Latitudes, longitudes and readings are opaque `real`s and are never computed
  on. Float rounding and formatting (`round`, `.4f`) are left out.
- The PDF limit `int(w * 1.6)` is written `w * 16 / 10`. For the nine listed
  widths both give the same numbers. In double arithmetic 10 × 1.6 is exactly
  16.0, because the double nearest 1.6 lies just above it; the other eight
  products are at least 0.2 away from a whole number.
- Persistence is an in-memory map. The new record's id is chosen by the caller
  and must be unused, as SQLite's rowid is. `created_at` is a parameter.
  `list_records` and its ordering by database timestamps are not modelled.
- `RecordOut` serialisation and the HTTP status FastAPI gives to a validation
  error raised inside a handler are not modelled. Such an error is `Invalid`.
- A printed value `str(v)` is taken as given text. Cells of the Markdown printer
  and the XML and PDF exports are strings, and NULL is `None`.
- The Streamlit UI, the pandas DataFrames, and the JSON, CSV, Markdown (`to_markdown`)
  and PDF rendering are left out. Only the PDF cell text is modelled. The latin-1
  encoding of the PDF bytes, which drops the ellipsis character, is outside it.
- A missing "daily" key and `"daily": null` are both modelled as an absent series
  (`Response.daily` is `None`). In Python a single-service answer keeps that
  difference: the key is absent from the answer in one case and `"daily": None`
  in the other. The model does not tell them apart.
- RecordExport.XmlDocumentLines: the line count is stated only when no key or
  value holds a newline. Otherwise each such newline adds a line, as
  `RecordExport.FieldLineNewlines` counts, and the document has more lines than
  parts.
- MarkdownTable.FormatRowWidth: the line width formula is stated for at least one
  column and a row with a cell per column. A zero-column table prints `|  |`,
  and a short row prints a shorter line.

=== FILE: basics.dfy ===
/** Failure-carrying datatypes shared by every part of the model.

    The backend reports failures by raising: FastAPI's `HTTPException(status, detail)`,
    a pydantic validation error when a request object is built inside a handler,
    and the `requests` error raised by `raise_for_status()` when an upstream weather
    service fails. Each becomes one constructor of `Error`. */
module Basics {

  datatype Option<+T> = None | Some(value: T) {
    function GetOr(default: T): T {
      match this
      case Some(v) => v
      case None => default
    }
  }

  /** The weather service a fetch goes to: the historical archive or the forecast. */
  datatype Source = Archive | Forecast

  datatype Error =
    | Http(status: int, detail: string)   // an HTTPException raised by a handler
    | Invalid(detail: string)             // a pydantic validation error
    | Upstream(source: Source)            // a failed call to an upstream weather service

  datatype Result<+T> = Ok(value: T) | Err(error: Error)

  const NotFound := Http(404, "Record not found")
  const LocationNotFound := Http(404, "Location not found")
  const BadRange := Http(400, "end_date must be on/after start_date")
  const InvalidRange := Invalid("end_date must be on/after start_date")
}

=== FILE: daily_merge.dfy ===
/** The daily weather series and the merge of an archive series with a forecast
    series (the `_merge_daily` helper of the range endpoint).

    A daily series maps a metric name ("time", "temperature_2m_max", ...) to one value
    per day. The "time" column holds the calendar dates, here day numbers. */
module DailyMerge {

  /** One value of a daily column: a date, a reading, or JSON null. */
  datatype Cell = Date(day: int) | Num(x: real) | Null

  type Daily = map<string, seq<Cell>>

  const TimeKey: string := "time"

  /** `d.get(k, [])`. */
  function Column(d: Daily, k: string): seq<Cell> {
    if k in d then d[k] else []
  }

  /** `[t for t in b if t not in a]`. */
  function FilterNotIn(b: seq<Cell>, a: seq<Cell>): (r: seq<Cell>)
    ensures |r| <= |b|
    ensures forall x :: x in r <==> x in b && x !in a
    ensures forall x :: multiset(r)[x] == if x in a then 0 else multiset(b)[x]
    decreases |b|
  {
    if |b| == 0 then []
    else
      assert b == [b[0]] + b[1..];
      (if b[0] in a then [] else [b[0]]) + FilterNotIn(b[1..], a)
  }

  /** The merged "time" column: the archive dates, then the forecast dates the archive
      does not already hold. The archive side is kept whole, in order; a date on both
      sides keeps only its archive copies. */
  function MergeTime(a: seq<Cell>, b: seq<Cell>): (r: seq<Cell>)
    ensures |a| <= |r| <= |a| + |b| && r[..|a|] == a
    ensures forall x :: x in r <==> x in a || x in b
    ensures forall x :: multiset(r)[x] == if x in a then multiset(a)[x] else multiset(b)[x]
  {
    var r := a + FilterNotIn(b, a);
    assert r[..|a|] == a;
    r
  }

  /** `_merge_daily(d1, d2)`: every key of either side; a side that lacks a key
      contributes an empty column. */
  function MergeDaily(d1: Daily, d2: Daily): (r: Daily)
    ensures r.Keys == d1.Keys + d2.Keys
    ensures forall k :: k in r && k != TimeKey ==> r[k] == Column(d1, k) + Column(d2, k)
    ensures forall k :: k in r && k != TimeKey ==> |r[k]| == |Column(d1, k)| + |Column(d2, k)|
    ensures TimeKey in r ==> r[TimeKey] == MergeTime(Column(d1, TimeKey), Column(d2, TimeKey))
  {
    map k | k in d1.Keys + d2.Keys ::
      if k == TimeKey then MergeTime(Column(d1, k), Column(d2, k))
      else Column(d1, k) + Column(d2, k)
  }

  // ----- Properties of the merge -----

  predicate NoDuplicates(s: seq<Cell>) {
    forall i, j :: 0 <= i < j < |s| ==> s[i] != s[j]
  }

  /** `x` is a date strictly before the date `y`. */
  predicate Before(x: Cell, y: Cell) {
    x.Date? && y.Date? && x.day < y.day
  }

  /** A well-formed "time" column: dates only, strictly ascending. */
  predicate Ascending(s: seq<Cell>) {
    && (forall i :: 0 <= i < |s| ==> s[i].Date?)
    && (forall i, j :: 0 <= i < j < |s| ==> Before(s[i], s[j]))
  }

  lemma {:induction false} NoDuplicatesConcat(a: seq<Cell>, b: seq<Cell>)
    requires NoDuplicates(a) && NoDuplicates(b)
    requires forall x :: x in b ==> x !in a
    ensures NoDuplicates(a + b)
  {
    var s := a + b;
    forall i, j | 0 <= i < j < |s|
      ensures s[i] != s[j]
    {
      if i < |a| && j >= |a| {
        assert s[j] == b[j - |a|];
        assert s[j] in b;
      } else if i >= |a| {
        assert s[i] == b[i - |a|] && s[j] == b[j - |a|];
      }
    }
  }

  lemma {:induction false} FilterNoDuplicates(b: seq<Cell>, a: seq<Cell>)
    requires NoDuplicates(b)
    ensures NoDuplicates(FilterNotIn(b, a))
    decreases |b|
  {
    if |b| > 0 {
      assert NoDuplicates(b[1..]) by {
        forall i, j | 0 <= i < j < |b[1..]|
          ensures b[1..][i] != b[1..][j]
        {
          assert b[1..][i] == b[i + 1] && b[1..][j] == b[j + 1];
        }
      }
      FilterNoDuplicates(b[1..], a);
      var head: seq<Cell> := if b[0] in a then [] else [b[0]];
      forall x | x in FilterNotIn(b[1..], a)
        ensures x !in head
      {
        assert x in b[1..];
        var j :| 0 <= j < |b[1..]| && b[1..][j] == x;
        assert b[j + 1] == x;
      }
      NoDuplicatesConcat(head, FilterNotIn(b[1..], a));
    }
  }

  /** The merged dates repeat nothing when neither side repeats a date. */
  lemma MergeTimeNoDuplicates(a: seq<Cell>, b: seq<Cell>)
    requires NoDuplicates(a) && NoDuplicates(b)
    ensures NoDuplicates(MergeTime(a, b))
  {
    FilterNoDuplicates(b, a);
    NoDuplicatesConcat(a, FilterNotIn(b, a));
  }

  lemma AscendingTail(b: seq<Cell>)
    requires Ascending(b) && |b| > 0
    ensures Ascending(b[1..])
    ensures forall y :: y in b[1..] ==> Before(b[0], y)
  {
    forall i, j | 0 <= i < j < |b[1..]|
      ensures Before(b[1..][i], b[1..][j])
    {
      assert b[1..][i] == b[i + 1] && b[1..][j] == b[j + 1];
    }
    forall y | y in b[1..]
      ensures Before(b[0], y)
    {
      var k :| 0 <= k < |b[1..]| && b[1..][k] == y;
      assert b[k + 1] == y;
    }
  }

  lemma AscendingCons(x: Cell, s: seq<Cell>)
    requires Ascending(s) && x.Date?
    requires forall y :: y in s ==> Before(x, y)
    ensures Ascending([x] + s)
  {
    var t := [x] + s;
    forall i, j | 0 <= i < j < |t|
      ensures Before(t[i], t[j])
    {
      assert t[j] == s[j - 1];
      if i > 0 {
        assert t[i] == s[i - 1];
      }
    }
    forall i | 0 <= i < |t|
      ensures t[i].Date?
    {
      if i > 0 {
        assert t[i] == s[i - 1];
      }
    }
  }

  lemma {:induction false} FilterAscending(b: seq<Cell>, a: seq<Cell>)
    requires Ascending(b)
    ensures Ascending(FilterNotIn(b, a))
    decreases |b|
  {
    if |b| > 0 {
      var rest := FilterNotIn(b[1..], a);
      AscendingTail(b);
      FilterAscending(b[1..], a);
      if b[0] !in a {
        assert b[0].Date?;
        AscendingCons(b[0], rest);
        assert FilterNotIn(b, a) == [b[0]] + rest;
      } else {
        assert FilterNotIn(b, a) == [] + rest;
      }
    }
  }

  /** When both sides are strictly ascending and every forecast date the archive lacks
      comes after every archive date, the merged dates are strictly ascending. This
      covers a forecast that repeats the archive's last days. */
  lemma MergeTimeAscending(a: seq<Cell>, b: seq<Cell>)
    requires Ascending(a) && Ascending(b)
    requires forall x, y :: x in a && y in b && y !in a ==> Before(x, y)
    ensures Ascending(MergeTime(a, b))
  {
    var f := FilterNotIn(b, a);
    FilterAscending(b, a);
    var s := a + f;
    forall i, j | 0 <= i < j < |s|
      ensures Before(s[i], s[j])
    {
      if j < |a| {
        assert s[i] == a[i] && s[j] == a[j];
      } else if i >= |a| {
        assert s[i] == f[i - |a|] && s[j] == f[j - |a|];
      } else {
        assert s[i] == a[i] && s[j] == f[j - |a|];
        assert s[j] in f;
      }
    }
    assert forall i :: 0 <= i < |s| ==> s[i].Date? by {
      forall i | 0 <= i < |s|
        ensures s[i].Date?
      {
        if i >= |a| {
          assert s[i] == f[i - |a|];
        }
      }
    }
  }

  lemma {:induction false} FilterNothing(b: seq<Cell>)
    ensures FilterNotIn(b, []) == b
    decreases |b|
  {
    if |b| > 0 {
      FilterNothing(b[1..]);
      assert b == [b[0]] + b[1..];
    }
  }

  /** Merging with an empty (or missing) series on either side returns the other
      series unchanged. */
  lemma MergeWithEmpty(d: Daily)
    ensures MergeDaily(d, map[]) == d
    ensures MergeDaily(map[], d) == d
  {
    var left := MergeDaily(d, map[]);
    var right := MergeDaily(map[], d);
    forall k | k in d
      ensures left[k] == d[k] && right[k] == d[k]
    {
      if k == TimeKey {
        FilterNothing(d[k]);
        assert FilterNotIn([], d[k]) == [];
        assert left[k] == d[k] + [];
        assert right[k] == [] + d[k];
      } else {
        assert left[k] == d[k] + [];
        assert right[k] == [] + d[k];
      }
    }
  }

  /** All columns of a series have one value per date. */
  predicate Aligned(d: Daily) {
    TimeKey in d && forall k :: k in d ==> |d[k]| == |d[TimeKey]|
  }

  lemma {:induction false} FilterKeepsDisjoint(b: seq<Cell>, a: seq<Cell>)
    requires forall i :: 0 <= i < |b| ==> b[i] !in a
    ensures FilterNotIn(b, a) == b
    decreases |b|
  {
    if |b| > 0 {
      var rest := b[1..];
      assert forall i :: 0 <= i < |rest| ==> rest[i] == b[i + 1];
      FilterKeepsDisjoint(rest, a);
      assert b == [b[0]] + rest;
    }
  }

  /** Alignment survives the merge when both sides carry the same metrics and share
      no date: then every column grows by the forecast's length. */
  lemma MergePreservesAlignment(d1: Daily, d2: Daily)
    requires Aligned(d1) && Aligned(d2) && d1.Keys == d2.Keys
    requires forall x :: x in d2[TimeKey] ==> x !in d1[TimeKey]
    ensures Aligned(MergeDaily(d1, d2))
    ensures |MergeDaily(d1, d2)[TimeKey]| == |d1[TimeKey]| + |d2[TimeKey]|
  {
    assert forall i :: 0 <= i < |d2[TimeKey]| ==> d2[TimeKey][i] in d2[TimeKey];
    FilterKeepsDisjoint(d2[TimeKey], d1[TimeKey]);
  }

  /** A forecast date the archive already holds is dropped by the filter. */
  lemma {:induction false} FilterShrinks(b: seq<Cell>, a: seq<Cell>, i: int)
    requires 0 <= i < |b| && b[i] in a
    ensures |FilterNotIn(b, a)| < |b|
    decreases i
  {
    if i == 0 {
      assert FilterNotIn(b, a) == [] + FilterNotIn(b[1..], a);
    } else {
      assert b[1..][i - 1] == b[i];
      FilterShrinks(b[1..], a, i - 1);
    }
  }

  /** A metric only the forecast reports (the archive requests three metrics, the
      forecast five) gets a column shorter than the merged dates whenever the archive
      side has dates: the merged series is not aligned. */
  lemma MissingMetricBreaksAlignment(d1: Daily, d2: Daily, k: string)
    requires Aligned(d1) && Aligned(d2)
    requires forall i :: 0 <= i < |d2[TimeKey]| ==> d2[TimeKey][i] !in d1[TimeKey]
    requires |d1[TimeKey]| > 0
    requires k != TimeKey && k !in d1 && k in d2
    ensures |MergeDaily(d1, d2)[k]| < |MergeDaily(d1, d2)[TimeKey]|
    ensures !Aligned(MergeDaily(d1, d2))
  {
    FilterKeepsDisjoint(d2[TimeKey], d1[TimeKey]);
    assert MergeDaily(d1, d2)[k] == [] + d2[k];
  }

  /** A forecast that repeats an archive date loses that date from "time" but keeps its
      readings, so in every metric both sides report the readings outnumber the dates. */
  lemma OverlapBreaksAlignment(d1: Daily, d2: Daily, k: string, i: int)
    requires Aligned(d1) && Aligned(d2)
    requires k != TimeKey && k in d1 && k in d2
    requires 0 <= i < |d2[TimeKey]| && d2[TimeKey][i] in d1[TimeKey]
    ensures |MergeDaily(d1, d2)[k]| > |MergeDaily(d1, d2)[TimeKey]|
    ensures !Aligned(MergeDaily(d1, d2))
  {
    FilterShrinks(d2[TimeKey], d1[TimeKey], i);
  }

  /** The dates `first`, `first + 1`, ..., `last`. */
  function DateRun(first: int, last: int): (r: seq<Cell>)
    requires first <= last + 1
    ensures |r| == last - first + 1
    ensures forall i :: 0 <= i < |r| ==> r[i] == Date(first + i)
    decreases last + 1 - first
  {
    if first > last then [] else [Date(first)] + DateRun(first + 1, last)
  }

  lemma DateRunSplit(first: int, mid: int, last: int)
    requires first <= mid + 1 <= last + 1
    ensures DateRun(first, last) == DateRun(first, mid) + DateRun(mid + 1, last)
  {
    var l, r := DateRun(first, mid), DateRun(mid + 1, last);
    var whole := DateRun(first, last);
    forall i | 0 <= i < |whole|
      ensures whole[i] == (l + r)[i]
    {
      if i >= |l| {
        assert r[i - |l|] == Date(mid + 1 + (i - |l|));
      }
    }
  }

  /** Two runs of dates, the first ending before the second begins, share no date, so
      the filter keeps all of the later run. */
  lemma DateRunsApart(first1: int, last1: int, first2: int, last2: int)
    requires first1 <= last1 + 1 && first2 <= last2 + 1 && last1 < first2
    ensures var a, b := DateRun(first1, last1), DateRun(first2, last2);
      && (forall k :: 0 <= k < |b| ==> b[k] !in a)
      && FilterNotIn(b, a) == b
  {
    var a, b := DateRun(first1, last1), DateRun(first2, last2);
    forall k | 0 <= k < |b|
      ensures b[k] !in a
    {
      assert forall j :: 0 <= j < |a| ==> a[j] != b[k];
    }
    FilterKeepsDisjoint(b, a);
  }

  /** A first forecast date the archive already holds is dropped by the filter. */
  lemma FilterDropsHeldHead(b: seq<Cell>, a: seq<Cell>)
    requires |b| > 0 && b[0] in a
    ensures FilterNotIn(b, a) == FilterNotIn(b[1..], a)
  {
    assert FilterNotIn(b, a) == [] + FilterNotIn(b[1..], a);
  }

  /** An archive run first..mid and a forecast run mid..last that repeats the boundary
      day merge into the run first..last, the boundary day once and from the archive
      side: with `mid` = yesterday, the split range's days come out in order, each
      once. */
  lemma BoundaryDayMergedOnce(first: int, mid: int, last: int)
    requires first <= mid <= last
    ensures MergeTime(DateRun(first, mid), DateRun(mid, last)) == DateRun(first, last)
  {
    var a := DateRun(first, mid);
    var b := DateRun(mid, last);
    var later := DateRun(mid + 1, last);
    assert b[1..] == later;
    assert b[0] == a[mid - first];
    FilterDropsHeldHead(b, a);
    DateRunsApart(first, mid, mid + 1, last);
    DateRunSplit(first, mid, last);
    assert MergeTime(a, b) == a + FilterNotIn(b, a);
  }
}

=== FILE: markdown_table.dfy ===
/** The Markdown table printer of the database inspection tool (`rows_to_markdown`):
    column widths from the header and every cell, cells left-justified to their
    column width, a dash separator, lines joined by newlines. */
module MarkdownTable {
  import opened Basics
  import opened Text

  /** A table row: `None` is a NULL column, `Some(s)` a value printed as `s`. */
  type Row = seq<Option<string>>

  /** The printed text of a cell: NULL prints (and measures) as the empty string. */
  function CellText(v: Option<string>): string {
    v.GetOr("")
  }

  /** The width loop indexes `widths` by cell position, so a row longer than the
      header row raises an index error. */
  predicate RowsFit(headers: seq<string>, rows: seq<Row>) {
    forall r :: 0 <= r < |rows| ==> |rows[r]| <= |headers|
  }

  /** One pass of the width loop: widen each column to the row's cell if wider. */
  function Widen(widths: seq<nat>, row: Row): (w: seq<nat>)
    requires |row| <= |widths|
    ensures |w| == |widths|
    ensures forall i :: 0 <= i < |w| ==> widths[i] <= w[i]
    ensures forall i :: 0 <= i < |row| ==> |CellText(row[i])| <= w[i]
    ensures forall i :: 0 <= i < |w| ==> w[i] == widths[i] || (i < |row| && w[i] == |CellText(row[i])|)
  {
    seq(|widths|, i requires 0 <= i < |widths| =>
      if i < |row| && |CellText(row[i])| > widths[i] then |CellText(row[i])| else widths[i])
  }

  /** The column widths: each is the largest of its header's length and its cells'
      lengths. */
  function ColumnWidths(headers: seq<string>, rows: seq<Row>): (w: seq<nat>)
    requires RowsFit(headers, rows)
    ensures |w| == |headers|
    ensures forall i :: 0 <= i < |w| ==> |headers[i]| <= w[i]
    ensures forall r, i :: 0 <= r < |rows| && 0 <= i < |rows[r]| ==> |CellText(rows[r][i])| <= w[i]
    ensures forall i :: 0 <= i < |w| ==>
              || w[i] == |headers[i]|
              || exists r :: 0 <= r < |rows| && i < |rows[r]| && w[i] == |CellText(rows[r][i])|
    decreases |rows|
  {
    if |rows| == 0 then seq(|headers|, i requires 0 <= i < |headers| => |headers[i]|)
    else
      var before := ColumnWidths(headers, rows[..|rows| - 1]);
      var w := Widen(before, rows[|rows| - 1]);
      assert forall r :: 0 <= r < |rows| - 1 ==> rows[..|rows| - 1][r] == rows[r];
      w
  }

  /** `s.ljust(w)`: `s` followed by spaces up to width `w`; never shortened. */
  function LJust(s: string, w: nat): (r: string)
    ensures |r| == if |s| >= w then |s| else w
    ensures r[..|s|] == s
    ensures forall k :: |s| <= k < |r| ==> r[k] == ' '
  {
    if |s| >= w then s else s + Repeat(' ', w - |s|)
  }

  /** The padded cells of a row, one per cell the row has. */
  function Cells(row: Row, widths: seq<nat>): (cells: seq<string>)
    requires |row| <= |widths|
    ensures |cells| == |row|
  {
    seq(|row|, i requires 0 <= i < |row| => LJust(CellText(row[i]), widths[i]))
  }

  /** `fmt_row(row)`. */
  function FormatRow(row: Row, widths: seq<nat>): string
    requires |row| <= |widths|
  {
    "| " + Join(" | ", Cells(row, widths)) + " |"
  }

  /** The dash cells of the separator line. */
  function Dashes(widths: seq<nat>): (cells: seq<string>)
    ensures |cells| == |widths|
    ensures forall i :: 0 <= i < |widths| ==> cells[i] == Repeat('-', widths[i])
  {
    seq(|widths|, i requires 0 <= i < |widths| => Repeat('-', widths[i]))
  }

  function Separator(widths: seq<nat>): string {
    "| " + Join(" | ", Dashes(widths)) + " |"
  }

  function HeaderRow(headers: seq<string>): (row: Row)
    ensures |row| == |headers|
    ensures forall i :: 0 <= i < |headers| ==> CellText(row[i]) == headers[i]
  {
    seq(|headers|, i requires 0 <= i < |headers| => Some(headers[i]))
  }

  function BodyLines(rows: seq<Row>, widths: seq<nat>): (lines: seq<string>)
    requires forall r :: 0 <= r < |rows| ==> |rows[r]| <= |widths|
    ensures |lines| == |rows|
  {
    seq(|rows|, r requires 0 <= r < |rows| => FormatRow(rows[r], widths))
  }

  /** `rows_to_markdown(headers, rows)`; None when a row is longer than the header row. */
  function RowsToMarkdown(headers: seq<string>, rows: seq<Row>): (r: Option<string>)
    ensures r.Some? <==> RowsFit(headers, rows)
  {
    if !RowsFit(headers, rows) then None
    else
      var w := ColumnWidths(headers, rows);
      Some(Join("\n", [FormatRow(HeaderRow(headers), w), Separator(w), Join("\n", BodyLines(rows, w))]))
  }

  // ----- Layout properties -----

  /** Every padded cell is exactly as wide as its column when the column is at least
      as wide as the cell's text. */
  lemma CellsHaveColumnWidth(row: Row, widths: seq<nat>)
    requires |row| <= |widths|
    requires forall i :: 0 <= i < |row| ==> |CellText(row[i])| <= widths[i]
    ensures forall i :: 0 <= i < |row| ==> |Cells(row, widths)[i]| == widths[i]
  {
  }

  /** The width of a full line with `n >= 1` columns. */
  function LineWidth(widths: seq<nat>): nat {
    Sum(widths) + 3 * |widths| + 1
  }

  /** A row with a cell for every column, none wider than its column, prints as a
      line of `LineWidth` characters. */
  lemma FormatRowWidth(row: Row, widths: seq<nat>)
    requires 1 <= |row| == |widths|
    requires forall i :: 0 <= i < |row| ==> |CellText(row[i])| <= widths[i]
    ensures |FormatRow(row, widths)| == LineWidth(widths)
  {
    var cells := Cells(row, widths);
    CellsHaveColumnWidth(row, widths);
    JoinLength(" | ", cells);
    SumLengthsOfWidths(cells, widths);
  }

  /** The separator line has the same width, column `i` holding `widths[i]` dashes. */
  lemma SeparatorWidth(widths: seq<nat>)
    requires 1 <= |widths|
    ensures |Separator(widths)| == LineWidth(widths)
  {
    JoinLength(" | ", Dashes(widths));
    SumLengthsOfWidths(Dashes(widths), widths);
  }

  lemma JoinThree(sep: string, a: string, b: string, c: string)
    ensures Join(sep, [a, b, c]) == a + sep + b + sep + c
  {
    assert [a, b, c][1..] == [b, c];
    assert [b, c][1..] == [c];
    assert Join(sep, [c]) == c;
    assert Join(sep, [b, c]) == b + sep + c;
  }

  /** The table is the header line, the separator line, then one line per row, joined
      by newlines; with no rows it ends in a newline. */
  lemma TableLines(headers: seq<string>, rows: seq<Row>)
    requires RowsFit(headers, rows)
    ensures var w := ColumnWidths(headers, rows);
      var header := FormatRow(HeaderRow(headers), w);
      && (|rows| == 0 ==> RowsToMarkdown(headers, rows).value == header + "\n" + Separator(w) + "\n")
      && (|rows| > 0 ==> RowsToMarkdown(headers, rows).value
                         == Join("\n", [header, Separator(w)] + BodyLines(rows, w)))
  {
    var w := ColumnWidths(headers, rows);
    var header := FormatRow(HeaderRow(headers), w);
    var body := BodyLines(rows, w);
    JoinThree("\n", header, Separator(w), Join("\n", body));
    if |rows| > 0 {
      JoinAppend("\n", [header, Separator(w)], body);
      assert [header, Separator(w)][1..] == [Separator(w)];
    }
  }

  /** When every row has a cell for every column, the header line, the separator line
      and every row line are equally wide. */
  lemma TableLinesEquallyWide(headers: seq<string>, rows: seq<Row>)
    requires |headers| >= 1
    requires forall r :: 0 <= r < |rows| ==> |rows[r]| == |headers|
    ensures RowsFit(headers, rows)
    ensures var w := ColumnWidths(headers, rows);
      && |FormatRow(HeaderRow(headers), w)| == LineWidth(w)
      && |Separator(w)| == LineWidth(w)
      && (forall r :: 0 <= r < |rows| ==> |BodyLines(rows, w)[r]| == LineWidth(w))
  {
    var w := ColumnWidths(headers, rows);
    FormatRowWidth(HeaderRow(headers), w);
    SeparatorWidth(w);
    forall r | 0 <= r < |rows|
      ensures |BodyLines(rows, w)[r]| == LineWidth(w)
    {
      FormatRowWidth(rows[r], w);
    }
  }

  /** Column widths depend on a cell only through its printed text. */
  lemma {:induction false} SameTextSameWidths(headers: seq<string>, rows: seq<Row>, rows': seq<Row>)
    requires RowsFit(headers, rows)
    requires |rows'| == |rows|
    requires forall r :: 0 <= r < |rows| ==> |rows'[r]| == |rows[r]|
    requires forall r, i :: 0 <= r < |rows| && 0 <= i < |rows[r]| ==> CellText(rows'[r][i]) == CellText(rows[r][i])
    ensures RowsFit(headers, rows')
    ensures ColumnWidths(headers, rows') == ColumnWidths(headers, rows)
    decreases |rows|
  {
    if |rows| > 0 {
      var n := |rows| - 1;
      assert forall r :: 0 <= r < n ==> rows[..n][r] == rows[r] && rows'[..n][r] == rows'[r];
      SameTextSameWidths(headers, rows[..n], rows'[..n]);
    }
  }

  /** Widths and printed lines depend on a cell only through its printed text, so a
      NULL cell and an empty-string cell print alike. */
  lemma SameTextSameTable(headers: seq<string>, rows: seq<Row>, rows': seq<Row>)
    requires RowsFit(headers, rows)
    requires |rows'| == |rows|
    requires forall r :: 0 <= r < |rows| ==> |rows'[r]| == |rows[r]|
    requires forall r, i :: 0 <= r < |rows| && 0 <= i < |rows[r]| ==> CellText(rows'[r][i]) == CellText(rows[r][i])
    ensures RowsFit(headers, rows')
    ensures ColumnWidths(headers, rows') == ColumnWidths(headers, rows)
    ensures RowsToMarkdown(headers, rows') == RowsToMarkdown(headers, rows)
  {
    SameTextSameWidths(headers, rows, rows');
    var w := ColumnWidths(headers, rows);
    assert forall r :: 0 <= r < |rows| ==> Cells(rows'[r], w) == Cells(rows[r], w);
    assert BodyLines(rows', w) == BodyLines(rows, w);
  }
}

=== FILE: range_policy.dfy ===
/** The hybrid range endpoint: geocode the location, then fetch the requested days
    from the historical archive, from the forecast, or from both (split at `today`)
    and merge the two daily series.

    The geocoder and the two weather services are collaborators passed in as
    functions; a run records every fetch it makes, with the day range it asked for,
    so that the dispatch decisions can be stated. `today` is a parameter, read once. */
module RangePolicy {
  import opened Basics
  import opened Schemas
  import opened DailyMerge

  /** A geocoded place. Coordinates are only passed along, never computed on. */
  datatype Location = Location(name: string, lat: real, lon: real)

  /** An upstream weather response: its "daily" object (absent when missing or null)
      and its other top-level fields, each kept as opaque JSON text. */
  datatype Response = Response(daily: Option<Daily>, meta: map<string, string>)

  datatype Fetched = Fetched(response: Response) | FetchFailed

  /** The outside world of the endpoint: `geocode` returns None when the location is
      not found; a fetcher receives latitude, longitude, first day and last day. */
  datatype Collaborators = Collaborators(
    geocode: string -> Option<Location>,
    archive: (real, real, int, int) -> Fetched,
    forecast: (real, real, int, int) -> Fetched)

  /** The endpoint's answer `{"resolved": g, **payload}`: the geocoded location, the
      daily series and, when a single service answered, that service's other fields. */
  datatype RangePayload = RangePayload(resolved: Location, daily: Option<Daily>, meta: map<string, string>)

  /** One fetch made by a run: which service, and the inclusive day range asked for. */
  datatype Call = Call(source: Source, first: int, last: int)

  datatype Run = Run(calls: seq<Call>, result: Result<RangePayload>)

  datatype Branch = PastOnly | FutureOnly | Split

  /** The three-way dispatch on a well-ordered range. */
  function Choose(start: int, end: int, today: int): (b: Branch)
    ensures b == PastOnly <==> end < today
    ensures start <= end ==> (b == FutureOnly <==> today <= start)
    ensures start <= end ==> (b == Split <==> start < today <= end)
  {
    if end < today then PastOnly
    else if start >= today then FutureOnly
    else Split
  }

  /** `response.get("daily", {})`, with a null "daily" read as empty as the merge does. */
  function DailyOf(r: Response): Daily {
    r.daily.GetOr(map[])
  }

  /** The answer of one service used alone. */
  function Single(g: Location, fetched: Fetched, source: Source): Result<RangePayload> {
    match fetched
    case Fetched(resp) => Ok(RangePayload(g, resp.daily, resp.meta))
    case FetchFailed => Err(Upstream(source))
  }

  /** `range_weather(body)` with `date.today()` = `today`. */
  function RangeWeather(req: RangeRequest, today: int, env: Collaborators): (run: Run)
    // geocode first: a miss is reported before the dates are looked at
    ensures env.geocode(req.inputLocation).None? ==> run == Run([], Err(LocationNotFound))
    // an inverted range asks nothing of either weather service
    ensures req.endDate < req.startDate ==> run.calls == [] && run.result.Err?
    ensures env.geocode(req.inputLocation).Some? && req.endDate < req.startDate ==>
              run.result == Err(BadRange)
    // a past range goes to the archive alone, for exactly the requested days
    ensures env.geocode(req.inputLocation).Some? && req.startDate <= req.endDate < today ==>
              run.calls == [Call(Archive, req.startDate, req.endDate)]
    // a range from today on goes to the forecast alone, for exactly the requested days
    ensures env.geocode(req.inputLocation).Some? && today <= req.startDate <= req.endDate ==>
              run.calls == [Call(Forecast, req.startDate, req.endDate)]
    // a straddling range asks the archive for the past days, then the forecast for the rest
    ensures env.geocode(req.inputLocation).Some? && req.startDate < today <= req.endDate ==>
              && 1 <= |run.calls| <= 2
              && run.calls[0] == Call(Archive, req.startDate, today - 1)
              && (|run.calls| == 2 ==> run.calls[1] == Call(Forecast, today, req.endDate))
              && (|run.calls| == 1 ==> run.result == Err(Upstream(Archive)))
    // the forecast is asked only after the archive answered, and a failure names its service
    ensures var g := env.geocode(req.inputLocation);
            g.Some? && req.startDate < today <= req.endDate ==>
              var past := env.archive(g.value.lat, g.value.lon, req.startDate, today - 1);
              var future := env.forecast(g.value.lat, g.value.lon, today, req.endDate);
              && (past.FetchFailed? <==> |run.calls| == 1)
              && (|run.calls| == 2 ==> (run.result.Err? <==> future.FetchFailed?))
              && (|run.calls| == 2 && run.result.Err? ==> run.result.error == Upstream(Forecast))
    // a single-service success is that service's response, with the location added
    ensures var g := env.geocode(req.inputLocation);
            g.Some? && req.startDate <= req.endDate && Choose(req.startDate, req.endDate, today) != Split ==>
              var source := run.calls[0].source;
              var fetched := if source == Archive
                then env.archive(g.value.lat, g.value.lon, req.startDate, req.endDate)
                else env.forecast(g.value.lat, g.value.lon, req.startDate, req.endDate);
              && (run.result.Ok? <==> fetched.Fetched?)
              && (run.result.Ok? ==> run.result.value == RangePayload(g.value, fetched.response.daily, fetched.response.meta))
              && (run.result.Err? ==> run.result.error == Upstream(source))
    // a split success is only the location and the merged series
    ensures run.result.Ok? && |run.calls| == 2 ==>
              && run.result.value.meta == map[]
              && run.result.value.daily.Some?
              && run.result.value.resolved == env.geocode(req.inputLocation).value
  {
    match env.geocode(req.inputLocation)
    case None => Run([], Err(LocationNotFound))
    case Some(g) =>
      var s, e := req.startDate, req.endDate;
      if e < s then Run([], Err(BadRange))
      else
        match Choose(s, e, today)
        case PastOnly => Run([Call(Archive, s, e)], Single(g, env.archive(g.lat, g.lon, s, e), Archive))
        case FutureOnly => Run([Call(Forecast, s, e)], Single(g, env.forecast(g.lat, g.lon, s, e), Forecast))
        case Split =>
          var past := env.archive(g.lat, g.lon, s, today - 1);
          if past.FetchFailed? then Run([Call(Archive, s, today - 1)], Err(Upstream(Archive)))
          else
            var calls := [Call(Archive, s, today - 1), Call(Forecast, today, e)];
            var future := env.forecast(g.lat, g.lon, today, e);
            if future.FetchFailed? then Run(calls, Err(Upstream(Forecast)))
            else
              var merged := MergeDaily(DailyOf(past.response), DailyOf(future.response));
              Run(calls, Ok(RangePayload(g, Some(merged), map[])))
  }

  // ----- The sub-ranges a run asks for -----

  /** Some call of `calls` asks for day `d`. */
  predicate Asks(calls: seq<Call>, d: int)
    decreases |calls|
  {
    |calls| > 0 && ((calls[0].first <= d <= calls[0].last) || Asks(calls[1..], d))
  }

  /** The calls ask for non-empty, consecutive, adjacent sub-ranges running from
      `first` to `last`. */
  predicate Tiles(calls: seq<Call>, first: int, last: int) {
    && |calls| >= 1
    && calls[0].first == first
    && calls[|calls| - 1].last == last
    && (forall i :: 0 <= i < |calls| ==> calls[i].first <= calls[i].last)
    && (forall i :: 0 <= i < |calls| - 1 ==> calls[i].last + 1 == calls[i + 1].first)
  }

  /** Tiling sub-ranges ask for every day of [first, last] and no other day, and no
      day twice. */
  lemma {:induction false} TilesCoverOnce(calls: seq<Call>, first: int, last: int)
    requires Tiles(calls, first, last)
    ensures forall d :: Asks(calls, d) <==> first <= d <= last
    ensures forall i, j :: 0 <= i < j < |calls| ==> calls[i].last < calls[j].first
    decreases |calls|
  {
    if |calls| > 1 {
      var rest := calls[1..];
      assert Tiles(rest, calls[1].first, last) by {
        forall i | 0 <= i < |rest| - 1
          ensures rest[i].last + 1 == rest[i + 1].first
        {
          assert rest[i] == calls[i + 1] && rest[i + 1] == calls[i + 2];
        }
      }
      TilesCoverOnce(rest, calls[1].first, last);
      forall i, j | 0 <= i < j < |calls|
        ensures calls[i].last < calls[j].first
      {
        if i > 0 {
          assert calls[i] == rest[i - 1] && calls[j] == rest[j - 1];
        } else if j > 1 {
          assert calls[1] == rest[0] && calls[j] == rest[j - 1];
        }
      }
    } else {
      assert forall d :: !Asks(calls[1..], d);
    }
  }

  /** Every archive call asks only for past days; every forecast call only for today
      and later. */
  lemma CallsRespectToday(req: RangeRequest, today: int, env: Collaborators)
    ensures forall c :: c in RangeWeather(req, today, env).calls ==>
              && (c.source == Archive ==> c.last < today)
              && (c.source == Forecast ==> today <= c.first)
  {
  }

  /** A successful run asked for every requested day exactly once, each service at
      most once. */
  lemma SuccessCoversRangeOnce(req: RangeRequest, today: int, env: Collaborators)
    requires RangeWeather(req, today, env).result.Ok?
    ensures var calls := RangeWeather(req, today, env).calls;
      && Tiles(calls, req.startDate, req.endDate)
      && (forall d :: Asks(calls, d) <==> req.startDate <= d <= req.endDate)
      && (forall i, j :: 0 <= i < j < |calls| ==> calls[i].last < calls[j].first)
      && (forall i, j :: 0 <= i < j < |calls| ==> calls[i].source != calls[j].source)
  {
    var calls := RangeWeather(req, today, env).calls;
    TilesCoverOnce(calls, req.startDate, req.endDate);
  }

  /** A successful straddling run answers with the merge of the archive's and the
      forecast's daily series over the two halves, and nothing else beside the
      location. */
  lemma SplitMergesBothHalves(req: RangeRequest, today: int, env: Collaborators)
    requires env.geocode(req.inputLocation).Some?
    requires req.startDate < today <= req.endDate
    requires RangeWeather(req, today, env).result.Ok?
    ensures var g := env.geocode(req.inputLocation).value;
      var past := env.archive(g.lat, g.lon, req.startDate, today - 1);
      var future := env.forecast(g.lat, g.lon, today, req.endDate);
      && past.Fetched? && future.Fetched?
      && RangeWeather(req, today, env).result.value
         == RangePayload(g, Some(MergeDaily(DailyOf(past.response), DailyOf(future.response))), map[])
  {
  }

  /** A request built through the schema validator never reaches the endpoint's own
      end-before-start rejection: the validator has already refused it. */
  lemma ValidatedRequestNeverBadRange(location: string, start: int, end: int, today: int, env: Collaborators)
    requires MakeRangeRequest(location, start, end).Ok?
    ensures RangeWeather(MakeRangeRequest(location, start, end).value, today, env).result != Err(BadRange)
  {
  }
}

=== FILE: record_export.dfy ===
/** The dashboard's export helpers for saved records: the XML serialiser, the PDF
    cell truncation rule, and the trimming of a stored ISO timestamp for display. */
module RecordExport {
  import opened Text

  // ----- XML -----

  function EscapeChar(c: char): string {
    if c == '&' then "&amp;" else if c == '<' then "&lt;" else if c == '>' then "&gt;" else [c]
  }

  /** `t` begins with `p`. */
  predicate StartsWith(t: string, p: string) {
    |p| <= |t| && t[..|p|] == p
  }

  /** An entity written by `Escape` starts at position `k` of `r`. */
  predicate EntityAt(r: string, k: int)
    requires 0 <= k <= |r|
  {
    StartsWith(r[k..], "&amp;") || StartsWith(r[k..], "&lt;") || StartsWith(r[k..], "&gt;")
  }

  /** `xml.sax.saxutils.escape(s)`: `&`, `<` and `>` become entities. */
  function Escape(s: string): (r: string)
    ensures forall k :: 0 <= k < |r| ==> r[k] != '<' && r[k] != '>'
    decreases |s|
  {
    if |s| == 0 then ""
    else
      var head, tail := EscapeChar(s[0]), Escape(s[1..]);
      var r := head + tail;
      assert forall k :: |head| <= k < |r| ==> r[k] == tail[k - |head|];
      r
  }

  /** Every `&` of escaped text begins one of the three entities, so escaped text
      never holds a bare ampersand. */
  lemma {:induction false} EscapedAmpersandsAreEntities(s: string)
    ensures forall k :: 0 <= k < |Escape(s)| && Escape(s)[k] == '&' ==> EntityAt(Escape(s), k)
    decreases |s|
  {
    if |s| > 0 {
      var head, tail := EscapeChar(s[0]), Escape(s[1..]);
      var r := Escape(s);
      assert r == head + tail;
      EscapedAmpersandsAreEntities(s[1..]);
      forall k | 0 <= k < |r| && r[k] == '&'
        ensures EntityAt(r, k)
      {
        if k < |head| {
          assert k == 0 && r[..|head|] == head;
        } else {
          assert r[k..] == tail[k - |head|..];
        }
      }
    }
  }

  /** Reverses `Escape`: the three entities back to their characters. */
  function Unescape(r: string): string
    decreases |r|
  {
    if |r| == 0 then ""
    else if StartsWith(r, "&amp;") then "&" + Unescape(r[5..])
    else if StartsWith(r, "&lt;") then "<" + Unescape(r[4..])
    else if StartsWith(r, "&gt;") then ">" + Unescape(r[4..])
    else [r[0]] + Unescape(r[1..])
  }

  lemma UnescapeAmp(t: string)
    ensures Unescape("&amp;" + t) == "&" + Unescape(t)
  {
    var r := "&amp;" + t;
    assert r[..5] == "&amp;" && r[5..] == t;
  }

  lemma UnescapeLt(t: string)
    ensures Unescape("&lt;" + t) == "<" + Unescape(t)
  {
    var r := "&lt;" + t;
    assert r[1] == 'l';
    assert r[..4] == "&lt;" && r[4..] == t;
  }

  lemma UnescapeGt(t: string)
    ensures Unescape("&gt;" + t) == ">" + Unescape(t)
  {
    var r := "&gt;" + t;
    assert r[1] == 'g';
    assert r[..4] == "&gt;" && r[4..] == t;
  }

  lemma UnescapePlain(c: char, t: string)
    requires c != '&'
    ensures Unescape([c] + t) == [c] + Unescape(t)
  {
    var r := [c] + t;
    assert r[0] == c && r[1..] == t;
  }

  lemma UnescapeEscapedChar(c: char, t: string)
    ensures Unescape(EscapeChar(c) + t) == [c] + Unescape(t)
  {
    if c == '&' {
      UnescapeAmp(t);
    } else if c == '<' {
      UnescapeLt(t);
    } else if c == '>' {
      UnescapeGt(t);
    } else {
      UnescapePlain(c, t);
    }
  }

  /** Escaping loses nothing: unescaping gives the original text back. */
  lemma {:induction false} EscapeRoundTrip(s: string)
    ensures Unescape(Escape(s)) == s
    decreases |s|
  {
    if |s| > 0 {
      EscapeRoundTrip(s[1..]);
      UnescapeEscapedChar(s[0], Escape(s[1..]));
      assert [s[0]] + s[1..] == s;
    }
  }

  /** A record as its key and printed-value pairs, in the order the row lists them. */
  type Fields = seq<(string, string)>

  function FieldLine(key: string, value: string): (line: string)
    ensures StartsWith(line, "    <" + key + ">")
    ensures line[..5] == "    <"
  {
    var open := "    <" + key + ">";
    var line := open + Escape(value) + "</" + key + ">";
    assert line[..|open|] == open;
    assert line[..5] == open[..5];
    line
  }

  function RecordLines(row: Fields): (lines: seq<string>)
    ensures |lines| == |row| + 2
    ensures lines[0] == "  <record>" && lines[|lines| - 1] == "  </record>"
    ensures forall i :: 0 <= i < |row| ==> lines[i + 1] == FieldLine(row[i].0, row[i].1)
  {
    ["  <record>"] + seq(|row|, i requires 0 <= i < |row| => FieldLine(row[i].0, row[i].1)) + ["  </record>"]
  }

  function AllRecordLines(rows: seq<Fields>): seq<string>
    decreases |rows|
  {
    if |rows| == 0 then [] else RecordLines(rows[0]) + AllRecordLines(rows[1..])
  }

  function XmlLines(rows: seq<Fields>): seq<string> {
    ["<records>"] + AllRecordLines(rows) + ["</records>"]
  }

  /** `to_xml(rows)`. */
  function ToXml(rows: seq<Fields>): (r: string)
    ensures StartsWith(r, "<records>")
    ensures |r| >= 10 && r[|r| - 10..] == "</records>"
  {
    var lines := XmlLines(rows);
    JoinEnds("\n", lines);
    Join("\n", lines)
  }

  /** The number of lines equal to `line`. */
  function Count(lines: seq<string>, line: string): nat
    decreases |lines|
  {
    if |lines| == 0 then 0 else (if lines[0] == line then 1 else 0) + Count(lines[1..], line)
  }

  lemma {:induction false} CountAppend(a: seq<string>, b: seq<string>, line: string)
    ensures Count(a + b, line) == Count(a, line) + Count(b, line)
    decreases |a|
  {
    if |a| > 0 {
      assert (a + b)[1..] == a[1..] + b;
      CountAppend(a[1..], b, line);
    } else {
      assert a + b == b;
    }
  }

  /** Total lines a list of records takes: an opening and a closing line each, plus one
      line per field. */
  function RecordLineBudget(rows: seq<Fields>): nat
    decreases |rows|
  {
    if |rows| == 0 then 0 else 2 + |rows[0]| + RecordLineBudget(rows[1..])
  }

  /** The lines of a block framed by `open` and `close` that equal `line`, when no
      inner line does. */
  lemma CountFramed(open: string, inner: seq<string>, close: string, line: string)
    requires forall k :: 0 <= k < |inner| ==> inner[k] != line
    ensures Count([open] + inner + [close], line) == (if open == line then 1 else 0) + (if close == line then 1 else 0)
  {
    CountNone(inner, line);
    CountAppend([open] + inner, [close], line);
    CountAppend([open], inner, line);
    assert Count([close], line) == (if close == line then 1 else 0) by {
      assert [close][1..] == [];
    }
    assert Count([open], line) == (if open == line then 1 else 0) by {
      assert [open][1..] == [];
    }
  }

  /** A field line is indented deeper than a record tag, so it is never taken for
      one. */
  lemma FieldLineIsNotTag(key: string, value: string)
    ensures FieldLine(key, value) != "  <record>" && FieldLine(key, value) != "  </record>"
  {
    var line := FieldLine(key, value);
    assert line[2] == "    <"[2] == ' ';
    assert "  <record>"[2] == '<' && "  </record>"[2] == '<';
  }

  /** Each record contributes one opening and one closing tag line. */
  lemma FieldLinesAreNotTags(row: Fields)
    ensures Count(RecordLines(row), "  <record>") == 1
    ensures Count(RecordLines(row), "  </record>") == 1
  {
    var lines := RecordLines(row);
    var inner := lines[1..|lines| - 1];
    assert lines == ["  <record>"] + inner + ["  </record>"];
    forall k | 0 <= k < |inner|
      ensures inner[k] != "  <record>" && inner[k] != "  </record>"
    {
      assert inner[k] == lines[k + 1] == FieldLine(row[k].0, row[k].1);
      FieldLineIsNotTag(row[k].0, row[k].1);
    }
    CountFramed("  <record>", inner, "  </record>", "  <record>");
    CountFramed("  <record>", inner, "  </record>", "  </record>");
  }

  lemma {:induction false} CountNone(lines: seq<string>, line: string)
    requires forall k :: 0 <= k < |lines| ==> lines[k] != line
    ensures Count(lines, line) == 0
    decreases |lines|
  {
    if |lines| > 0 {
      CountNone(lines[1..], line);
    }
  }

  /** The XML is joined from 2 + sum of (2 + fields) parts: `<records>`, then for each
      record an opening tag, one part per field and a closing tag, then `</records>`. */
  lemma {:induction false} XmlShape(rows: seq<Fields>)
    ensures |AllRecordLines(rows)| == RecordLineBudget(rows)
    ensures |XmlLines(rows)| == 2 + RecordLineBudget(rows)
    ensures Count(AllRecordLines(rows), "  <record>") == |rows|
    ensures Count(AllRecordLines(rows), "  </record>") == |rows|
    decreases |rows|
  {
    if |rows| > 0 {
      XmlShape(rows[1..]);
      FieldLinesAreNotTags(rows[0]);
      CountAppend(RecordLines(rows[0]), AllRecordLines(rows[1..]), "  <record>");
      CountAppend(RecordLines(rows[0]), AllRecordLines(rows[1..]), "  </record>");
    }
  }

  /** Escaping neither adds nor removes a newline. */
  lemma {:induction false} EscapeKeepsNewlines(s: string)
    ensures Newlines(Escape(s)) == Newlines(s)
    decreases |s|
  {
    if |s| > 0 {
      var c := s[0];
      EscapeKeepsNewlines(s[1..]);
      NewlinesAppend(EscapeChar(c), Escape(s[1..]));
      NewlinesAppend([c], s[1..]);
      assert [c] + s[1..] == s;
      if c == '&' || c == '<' || c == '>' {
        NoNewlineChar(EscapeChar(c));
        NoNewlineChar([c]);
      }
    }
  }

  /** A field line breaks wherever its key (written twice) or its value breaks: a field
      line is one document line only when key and value hold no newline. */
  lemma FieldLineNewlines(key: string, value: string)
    ensures Newlines(FieldLine(key, value)) == 2 * Newlines(key) + Newlines(value)
  {
    var open := "    <" + key + ">";
    var body := open + Escape(value);
    NoNewlineChar("    <");
    NoNewlineChar(">");
    NoNewlineChar("</");
    NewlinesAppend("    <", key);
    NewlinesAppend("    <" + key, ">");
    NewlinesAppend(open, Escape(value));
    NewlinesAppend(body, "</");
    NewlinesAppend(body + "</", key);
    NewlinesAppend(body + "</" + key, ">");
    EscapeKeepsNewlines(value);
  }

  /** Escaping text without a newline gives text without a newline. */
  lemma {:induction false} EscapeSingleLine(s: string)
    requires '\n' !in s
    ensures '\n' !in Escape(s)
    decreases |s|
  {
    if |s| > 0 {
      assert s[0] in s;
      assert forall c :: c in s[1..] ==> c in s;
      EscapeSingleLine(s[1..]);
      assert Escape(s) == EscapeChar(s[0]) + Escape(s[1..]);
    }
  }

  lemma FieldLineSingle(key: string, value: string)
    requires '\n' !in key && '\n' !in value
    ensures '\n' !in FieldLine(key, value)
  {
    EscapeSingleLine(value);
    assert FieldLine(key, value) == "    <" + key + ">" + Escape(value) + "</" + key + ">";
  }

  /** No key and no printed value of any row holds a newline. */
  predicate SingleLineFields(rows: seq<Fields>) {
    forall r, i :: 0 <= r < |rows| && 0 <= i < |rows[r]| ==>
      '\n' !in rows[r][i].0 && '\n' !in rows[r][i].1
  }

  lemma RowLinesAreSingle(row: Fields)
    requires forall i :: 0 <= i < |row| ==> '\n' !in row[i].0 && '\n' !in row[i].1
    ensures forall j :: 0 <= j < |RecordLines(row)| ==> '\n' !in RecordLines(row)[j]
  {
    var lines := RecordLines(row);
    forall j | 1 <= j < |lines| - 1
      ensures '\n' !in lines[j]
    {
      FieldLineSingle(row[j - 1].0, row[j - 1].1);
    }
  }

  lemma {:induction false} RecordLinesAreSingle(rows: seq<Fields>)
    requires SingleLineFields(rows)
    ensures forall j :: 0 <= j < |AllRecordLines(rows)| ==> '\n' !in AllRecordLines(rows)[j]
    decreases |rows|
  {
    if |rows| > 0 {
      var rest := rows[1..];
      assert forall r :: 0 <= r < |rest| ==> rest[r] == rows[r + 1];
      RecordLinesAreSingle(rest);
      RowLinesAreSingle(rows[0]);
      var head, tail := RecordLines(rows[0]), AllRecordLines(rest);
      var all := AllRecordLines(rows);
      assert all == head + tail;
      forall j | 0 <= j < |all|
        ensures '\n' !in all[j]
      {
        if j < |head| {
          assert all[j] == head[j];
        } else {
          assert all[j] == tail[j - |head|];
        }
      }
    }
  }

  /** When no key or value holds a newline, the document has exactly 2 + sum of
      (2 + fields) lines: one per part of `XmlLines`. */
  lemma XmlDocumentLines(rows: seq<Fields>)
    requires SingleLineFields(rows)
    ensures Newlines(ToXml(rows)) + 1 == 2 + RecordLineBudget(rows)
  {
    XmlShape(rows);
    RecordLinesAreSingle(rows);
    var lines := XmlLines(rows);
    var inner := AllRecordLines(rows);
    assert lines == ["<records>"] + inner + ["</records>"];
    forall j | 0 <= j < |lines|
      ensures '\n' !in lines[j]
    {
      if 0 < j < |lines| - 1 {
        assert lines[j] == inner[j - 1];
      }
    }
    JoinSingleLines(lines);
  }

  // ----- PDF cells -----

  /** The PDF column widths, in the order id, created_at, input_location,
      resolved_name, lat, lon, kind, start_date, end_date. */
  const PdfColumnWidths: seq<nat> := [10, 36, 34, 34, 16, 16, 18, 22, 22]

  /** `int(w * 1.6)` for a whole width `w`. */
  function CharLimit(w: nat): nat {
    w * 16 / 10
  }

  /** The cell text of a PDF column `w` wide: cut to `CharLimit(w)` characters and
      marked with an ellipsis when longer. */
  function FitCell(text: string, w: nat): (r: string)
    ensures |r| <= CharLimit(w) + 1
    ensures |text| <= CharLimit(w) ==> r == text
    ensures |text| > CharLimit(w) ==>
              && |r| == CharLimit(w) + 1
              && r[..CharLimit(w)] == text[..CharLimit(w)]
              && r[CharLimit(w)] == '\U{2026}'
  {
    if |text| > CharLimit(w) then text[..CharLimit(w)] + "\U{2026}" else text
  }

  /** A fitted cell fits: fitting it again changes nothing. */
  lemma FitCellIdempotent(text: string, w: nat)
    ensures FitCell(FitCell(text, w), w) == FitCell(text, w)
  {
    var r := FitCell(text, w);
    if |text| > CharLimit(w) {
      assert r[..CharLimit(w)] + "\U{2026}" == r;
    }
  }

  lemma PdfCharLimits()
    ensures seq(|PdfColumnWidths|, i requires 0 <= i < |PdfColumnWidths| => CharLimit(PdfColumnWidths[i]))
            == [16, 57, 54, 54, 25, 25, 28, 35, 35]
  {
  }

  // ----- Timestamps -----

  /** `s.replace("T", " ")`. */
  function ReplaceT(s: string): (r: string)
    ensures |r| == |s|
    ensures forall k :: 0 <= k < |s| ==> r[k] == if s[k] == 'T' then ' ' else s[k]
  {
    seq(|s|, k requires 0 <= k < |s| => if s[k] == 'T' then ' ' else s[k])
  }

  /** `s.split(".")[0]`: the text before the first dot, or all of it. */
  function BeforeDot(s: string): (r: string)
    ensures |r| <= |s| && r == s[..|r|]
    ensures '.' !in r
    ensures |r| == |s| || s[|r|] == '.'
    decreases |s|
  {
    if |s| == 0 || s[0] == '.' then ""
    else
      var rest := BeforeDot(s[1..]);
      assert [s[0]] + rest == s[..|rest| + 1];
      [s[0]] + rest
  }

  /** The "when saved" column: the stored timestamp with `T` shown as a space and the
      fractional seconds dropped. */
  function DisplayTimestamp(s: string): (r: string)
    ensures |r| <= |s|
    ensures forall k :: 0 <= k < |r| ==> r[k] != 'T' && r[k] != '.'
    ensures forall k :: 0 <= k < |r| ==> r[k] == if s[k] == 'T' then ' ' else s[k]
    ensures |r| == |s| || s[|r|] == '.'
  {
    var r := BeforeDot(ReplaceT(s));
    assert forall k :: 0 <= k < |r| ==> r[k] == ReplaceT(s)[k];
    r
  }

  /** Trimming an already trimmed timestamp changes nothing. */
  lemma DisplayTimestampIdempotent(s: string)
    ensures DisplayTimestamp(DisplayTimestamp(s)) == DisplayTimestamp(s)
  {
    var r := DisplayTimestamp(s);
    var r2 := DisplayTimestamp(r);
    assert |r2| == |r|;
  }

  /** The display form is the stored text up to its first dot, or all of it when it
      has none, with `T` shown as a space. */
  lemma DisplayTimestampCutsAtFirstDot(s: string, n: int)
    requires 0 <= n <= |s|
    requires n == |s| || s[n] == '.'
    requires forall k :: 0 <= k < n ==> s[k] != '.'
    ensures DisplayTimestamp(s) == ReplaceT(s[..n])
  {
  }

  /** An ISO timestamp `<date>T<time>.<fraction>` shows as `<date> <time>`. */
  lemma IsoTimestampShown(date: string, time: string, fraction: string)
    requires forall k :: 0 <= k < |date| ==> date[k] != 'T' && date[k] != '.'
    requires forall k :: 0 <= k < |time| ==> time[k] != 'T' && time[k] != '.'
    ensures DisplayTimestamp(date + "T" + time + "." + fraction) == date + " " + time
  {
    var whole := date + "T" + time;
    var s := whole + "." + fraction;
    var n := |whole|;
    assert s[..n] == whole;
    assert forall k :: 0 <= k < n ==> s[k] == whole[k];
    DisplayTimestampCutsAtFirstDot(s, n);
    var shown := ReplaceT(whole);
    assert shown == date + " " + time by {
      assert forall k :: 0 <= k < |date| ==> shown[k] == date[k];
      assert forall k :: |date| < k < n ==> shown[k] == time[k - |date| - 1];
    }
  }
}

=== FILE: records.dfy ===
/** The saved-query endpoints (create, read, partial update, delete) over an
    in-memory store keyed by record id. Every endpoint that can write answers with
    the store after the call and the result, the read with the result alone; a
    failing call leaves the store as it was, as a raised exception leaves the
    database session uncommitted. */
module Records {
  import opened Basics
  import opened Text
  import opened Schemas
  import opened RangePolicy

  /** One saved query (the `queries` table). `createdAt` is the creation timestamp. */
  datatype Record = Record(
    inputLocation: string,
    resolvedName: Option<string>,
    lat: real,
    lon: real,
    kind: string,
    startDate: Option<int>,
    endDate: Option<int>,
    resultPayload: Option<RangePayload>,
    createdAt: int)

  type Store = map<int, Record>

  datatype Reply<+T> = Reply(store: Store, result: Result<T>)

  /** The world a refetching endpoint sees: the collaborators of the range endpoint
      and the current day. */
  datatype Env = Env(services: Collaborators, today: int)

  /** `GET /records/{id}`. */
  function GetRecord(store: Store, id: int): (r: Result<Record>)
    ensures r.Ok? <==> id in store
    ensures r.Ok? ==> r.value == store[id]
    ensures r.Err? ==> r.error == NotFound
  {
    if id in store then Ok(store[id]) else Err(NotFound)
  }

  /** `POST /records`: validate the range, run the range endpoint, and store a "range"
      record built from its answer. `id` is the row id the database assigns and
      `now` the creation time. */
  function CreateRecord(store: Store, body: RecordCreate, id: int, now: int, env: Env): (out: Reply<Record>)
    requires id !in store
    ensures out.result.Err? ==> out.store == store
    ensures out.result.Ok? ==>
              var rec := out.result.value;
              && out.store == store[id := rec]
              && rec.kind == "range"
              && rec.inputLocation == Strip(body.inputLocation)
              && rec.startDate == Some(body.startDate) && rec.endDate == Some(body.endDate)
              && rec.createdAt == now
    ensures body.endDate < body.startDate ==> out == Reply(store, Err(InvalidRange))
    // a valid range succeeds exactly when the range endpoint does, fails with its
    // error, and stores its answer as the payload
    ensures var rr := MakeRangeRequest(body.inputLocation, body.startDate, body.endDate);
            rr.Ok? ==>
              var w := RangeWeather(rr.value, env.today, env.services).result;
              && (out.result.Ok? <==> w.Ok?)
              && (out.result.Err? ==> out.result.error == w.error)
              && (out.result.Ok? ==> out.result.value.resultPayload == Some(w.value))
  {
    match MakeRangeRequest(body.inputLocation, body.startDate, body.endDate)
    case Err(e) => Reply(store, Err(e))
    case Ok(rr) =>
      match RangeWeather(rr, env.today, env.services).result
      case Err(e) => Reply(store, Err(e))
      case Ok(p) =>
        var rec := Record(
          inputLocation := Strip(body.inputLocation),
          resolvedName := Some(p.resolved.name),
          lat := p.resolved.lat,
          lon := p.resolved.lon,
          kind := "range",
          startDate := Some(body.startDate),
          endDate := Some(body.endDate),
          resultPayload := Some(p),
          createdAt := now);
        Reply(store[id := rec], Ok(rec))
  }

  /** The field edits of `PATCH /records/{id}`, before any refetch: a supplied field
      replaces the stored one (the location stripped), an absent one leaves it. The
      end-before-start check runs only when an end date is supplied. */
  function ApplyEdits(rec: Record, body: RecordUpdate): (r: Result<Record>)
    ensures r.Err? <==> body.endDate.Some? && Edited(rec, body).startDate.Some?
                        && body.endDate.value < Edited(rec, body).startDate.value
    ensures r.Err? ==> r.error == BadRange
    ensures r.Ok? ==> r.value == Edited(rec, body)
  {
    var edited := Edited(rec, body);
    if body.endDate.Some? && edited.startDate.Some? && edited.endDate.value < edited.startDate.value
    then Err(BadRange)
    else Ok(edited)
  }

  /** `rec` with every supplied field of `body` written over it. */
  function Edited(rec: Record, body: RecordUpdate): Record {
    rec.(
      inputLocation := if body.inputLocation.Some? then Strip(body.inputLocation.value) else rec.inputLocation,
      resolvedName := if body.resolvedName.Some? then body.resolvedName else rec.resolvedName,
      kind := body.kind.GetOr(rec.kind),
      startDate := if body.startDate.Some? then body.startDate else rec.startDate,
      endDate := if body.endDate.Some? then body.endDate else rec.endDate)
  }

  /** Whether a patched record is refreshed from the range endpoint. */
  predicate WantsRefetch(body: RecordUpdate, rec: Record) {
    body.refetch && rec.kind == "range" && rec.startDate.Some? && rec.endDate.Some?
  }

  /** Re-run the range endpoint for an edited record and overwrite its location
      fields and payload from the answer. */
  function Refetch(rec: Record, env: Env): (r: Result<Record>)
    requires rec.startDate.Some? && rec.endDate.Some?
    ensures rec.endDate.value < rec.startDate.value ==> r == Err(InvalidRange)
    ensures r.Ok? ==>
              && r.value.resultPayload.Some?
              && r.value.resolvedName == Some(r.value.resultPayload.value.resolved.name)
              && r.value.lat == r.value.resultPayload.value.resolved.lat
              && r.value.lon == r.value.resultPayload.value.resolved.lon
              && r.value.inputLocation == rec.inputLocation && r.value.kind == rec.kind
              && r.value.startDate == rec.startDate && r.value.endDate == rec.endDate
              && r.value.createdAt == rec.createdAt
    // the refetch succeeds exactly when the range endpoint does, fails with its error,
    // and stores its answer as the payload
    ensures var rr := MakeRangeRequest(rec.inputLocation, rec.startDate.value, rec.endDate.value);
            rr.Ok? ==>
              var w := RangeWeather(rr.value, env.today, env.services).result;
              && (r.Ok? <==> w.Ok?)
              && (r.Err? ==> r.error == w.error)
              && (r.Ok? ==> r.value.resultPayload == Some(w.value))
  {
    match MakeRangeRequest(rec.inputLocation, rec.startDate.value, rec.endDate.value)
    case Err(e) => Err(e)
    case Ok(rr) =>
      match RangeWeather(rr, env.today, env.services).result
      case Err(e) => Err(e)
      case Ok(p) =>
        Ok(rec.(resolvedName := Some(p.resolved.name), lat := p.resolved.lat,
                lon := p.resolved.lon, resultPayload := Some(p)))
  }

  /** `PATCH /records/{id}`. */
  function PatchRecord(store: Store, id: int, body: RecordUpdate, env: Env): (out: Reply<Record>)
    ensures id !in store ==> out == Reply(store, Err(NotFound))
    ensures out.result.Err? ==> out.store == store
    ensures out.result.Ok? ==> id in store && out.store == store[id := out.result.value]
    ensures out.result.Ok? && !WantsRefetch(body, Edited(store[id], body)) ==>
              out.result.value == Edited(store[id], body)
    // edits rejected by the end-before-start check answer 400 and commit nothing
    ensures id in store && ApplyEdits(store[id], body).Err? ==> out == Reply(store, Err(BadRange))
    // edits that pass, without a refetch, always commit the edited record
    ensures id in store && ApplyEdits(store[id], body).Ok? && !WantsRefetch(body, Edited(store[id], body)) ==>
              out == Reply(store[id := Edited(store[id], body)], Ok(Edited(store[id], body)))
    // a refetching patch whose edits pass succeeds exactly when the range endpoint
    // does, fails with its error, and otherwise stores the edited record with name,
    // coordinates and payload taken from the endpoint's answer
    ensures id in store && ApplyEdits(store[id], body).Ok? && WantsRefetch(body, Edited(store[id], body)) ==>
              var edited := Edited(store[id], body);
              var rr := MakeRangeRequest(edited.inputLocation, edited.startDate.value, edited.endDate.value);
              && (rr.Err? ==> out.result == Err(InvalidRange))
              && (rr.Ok? ==>
                    var w := RangeWeather(rr.value, env.today, env.services).result;
                    && (out.result.Ok? <==> w.Ok?)
                    && (out.result.Err? ==> out.result.error == w.error)
                    && (out.result.Ok? ==>
                          out.result.value == edited.(resolvedName := Some(w.value.resolved.name),
                                                      lat := w.value.resolved.lat, lon := w.value.resolved.lon,
                                                      resultPayload := Some(w.value))))
  {
    if id !in store then Reply(store, Err(NotFound))
    else
      match ApplyEdits(store[id], body)
      case Err(e) => Reply(store, Err(e))
      case Ok(edited) =>
        if WantsRefetch(body, edited) then
          match Refetch(edited, env)
          case Err(e) => Reply(store, Err(e))
          case Ok(fresher) => Reply(store[id := fresher], Ok(fresher))
        else Reply(store[id := edited], Ok(edited))
  }

  /** `DELETE /records/{id}`. */
  function DeleteRecord(store: Store, id: int): (out: Reply<()>)
    ensures id !in store ==> out == Reply(store, Err(NotFound))
    ensures id in store ==> out.result.Ok?
    ensures out.store.Keys == store.Keys - {id}
    ensures forall k :: k in out.store ==> out.store[k] == store[k]
  {
    if id !in store then Reply(store, Err(NotFound))
    else Reply(store - {id}, Ok(()))
  }

  // ----- Properties of the endpoints -----

  /** Reading a record after a successful patch returns what was stored;
      every other id reads as before. */
  lemma WritesAreVisible(store: Store, id: int, body: RecordUpdate, env: Env, other: int)
    requires other != id
    ensures var out := PatchRecord(store, id, body, env);
      && (out.result.Ok? ==> GetRecord(out.store, id) == out.result)
      && GetRecord(out.store, other) == GetRecord(store, other)
  {
  }

  /** After a delete the id reads as not found and every other id as before. */
  lemma DeleteIsSelective(store: Store, id: int, other: int)
    requires other != id
    ensures var out := DeleteRecord(store, id);
      && GetRecord(out.store, id) == Err(NotFound)
      && GetRecord(out.store, other) == GetRecord(store, other)
  {
  }

  /** Creation ignores the client's kind, resolved name, coordinates and payload: the
      record comes from the range endpoint's answer alone. */
  lemma CreateIgnoresClientFields(store: Store, body: RecordCreate, id: int, now: int, env: Env,
                                  kind: string, name: Option<string>, lat: Option<real>,
                                  lon: Option<real>, payload: Option<string>)
    requires id !in store
    ensures CreateRecord(store, body, id, now, env)
            == CreateRecord(store, body.(kind := kind, resolvedName := name, lat := lat,
                                         lon := lon, resultPayload := payload), id, now, env)
  {
  }

  /** A successful create stores the geocoded name and coordinates of its range answer,
      and that answer itself as the payload. */
  lemma CreateStoresResolvedLocation(store: Store, body: RecordCreate, id: int, now: int, env: Env)
    requires id !in store
    requires CreateRecord(store, body, id, now, env).result.Ok?
    ensures var rec := CreateRecord(store, body, id, now, env).result.value;
      var g := env.services.geocode(body.inputLocation);
      && g.Some?
      && rec.resolvedName == Some(g.value.name) && rec.lat == g.value.lat && rec.lon == g.value.lon
      && rec.resultPayload.Some? && rec.resultPayload.value.resolved == g.value
      && rec.resultPayload
         == Some(RangeWeather(RangeRequest(body.inputLocation, body.startDate, body.endDate),
                              env.today, env.services).result.value)
  {
  }

  /** A patch that supplies nothing and declines the refetch changes nothing. */
  lemma EmptyPatchChangesNothing(store: Store, id: int, env: Env)
    requires id in store
    ensures PatchRecord(store, id, RecordUpdate(refetch := false), env) == Reply(store, Ok(store[id]))
  {
    assert store[id := store[id]] == store;
  }

  /** Moving only the start date past the stored end date is not checked: without a
      refetch the inverted range is stored; with a refetch of a "range" record the
      rebuilt range request fails validation and nothing is stored. */
  lemma StartOnlyPatchSkipsRangeCheck(store: Store, id: int, start: int, env: Env)
    requires id in store && store[id].endDate.Some? && store[id].endDate.value < start
    ensures var out := PatchRecord(store, id, RecordUpdate(startDate := Some(start), refetch := false), env);
      && out.result.Ok?
      && out.store[id].startDate == Some(start)
      && out.store[id].endDate.value < out.store[id].startDate.value
    ensures store[id].kind == "range" ==>
      PatchRecord(store, id, RecordUpdate(startDate := Some(start)), env) == Reply(store, Err(InvalidRange))
  {
  }

  /** When the refetch runs and succeeds, the stored name and coordinates are the range
      endpoint's, whatever resolved name the patch supplied. */
  lemma RefetchOverridesSuppliedName(store: Store, id: int, body: RecordUpdate, env: Env)
    requires id in store
    requires ApplyEdits(store[id], body).Ok? && WantsRefetch(body, Edited(store[id], body))
    requires PatchRecord(store, id, body, env).result.Ok?
    ensures var rec := PatchRecord(store, id, body, env).result.value;
      var p := rec.resultPayload;
      && p.Some?
      && rec.resolvedName == Some(p.value.resolved.name)
      && p.value.resolved == env.services.geocode(rec.inputLocation).value
  {
  }

  /** A rejected patch commits none of its edits. */
  lemma RejectedPatchCommitsNothing(store: Store, id: int, body: RecordUpdate, env: Env)
    requires id in store && body.endDate.Some?
    requires Edited(store[id], body).startDate.Some?
    requires body.endDate.value < Edited(store[id], body).startDate.value
    ensures PatchRecord(store, id, body, env) == Reply(store, Err(BadRange))
  {
  }

  /** A successful patch: a field the body leaves out keeps its stored value, a supplied
      one replaces it (the location stripped). Name, coordinates and payload change only
      through the refetch. */
  lemma PatchFieldRules(store: Store, id: int, body: RecordUpdate, env: Env)
    requires PatchRecord(store, id, body, env).result.Ok?
    ensures id in store
    ensures var was := store[id];
      var rec := PatchRecord(store, id, body, env).result.value;
      && rec.inputLocation == (if body.inputLocation.Some? then Strip(body.inputLocation.value) else was.inputLocation)
      && rec.kind == (if body.kind.Some? then body.kind.value else was.kind)
      && rec.startDate == (if body.startDate.Some? then body.startDate else was.startDate)
      && rec.endDate == (if body.endDate.Some? then body.endDate else was.endDate)
      && rec.createdAt == was.createdAt
      && (!WantsRefetch(body, rec) ==>
            && rec.resolvedName == (if body.resolvedName.Some? then body.resolvedName else was.resolvedName)
            && rec.lat == was.lat && rec.lon == was.lon && rec.resultPayload == was.resultPayload)
  {
  }
}

=== FILE: schemas.dfy ===
/** The request bodies of the backend: the range request with its end-after-start
    validator, and the create and partial-update bodies of a stored record with
    their defaults. Dates are day numbers. */
module Schemas {
  import opened Basics

  /** A weather request for the inclusive day range [startDate, endDate]. A value of
      this type may hold any dates; only `MakeRangeRequest` enforces the order. */
  datatype RangeRequest = RangeRequest(inputLocation: string, startDate: int, endDate: int)

  /** The `end_date` field validator. `start` is the already validated `start_date`,
      absent when that field failed its own validation; then no comparison is made. */
  function CheckDates(start: Option<int>, end: int): (r: Result<int>)
    ensures r.Ok? <==> (start.None? || start.value <= end)
    ensures r.Ok? ==> r.value == end
    ensures r.Err? ==> r.error == InvalidRange
  {
    match start
    case Some(s) => if end < s then Err(InvalidRange) else Ok(end)
    case None => Ok(end)
  }

  /** Building a `RangeRequest` runs the validator with `start_date` present. */
  function MakeRangeRequest(location: string, start: int, end: int): (r: Result<RangeRequest>)
    ensures r.Ok? <==> start <= end
    ensures r.Ok? ==> r.value == RangeRequest(location, start, end)
    ensures r.Err? ==> r.error == InvalidRange
  {
    match CheckDates(Some(start), end)
    case Ok(e) => Ok(RangeRequest(location, start, e))
    case Err(err) => Err(err)
  }

  /** Body of a record creation. The caller-supplied `resultPayload` is opaque JSON
      text here; creation never reads it. */
  datatype RecordCreate = RecordCreate(
    inputLocation: string,
    startDate: int,
    endDate: int,
    kind: string := "range",
    resolvedName: Option<string> := None,
    lat: Option<real> := None,
    lon: Option<real> := None,
    resultPayload: Option<string> := None)

  /** Body of a partial update: a `None` field means "leave unchanged". */
  datatype RecordUpdate = RecordUpdate(
    inputLocation: Option<string> := None,
    resolvedName: Option<string> := None,
    kind: Option<string> := None,
    startDate: Option<int> := None,
    endDate: Option<int> := None,
    refetch: bool := true)

  /** Every optional field of `RecordCreate` defaults to absent and `kind` to "range". */
  lemma CreateDefaults(location: string, start: int, end: int)
    ensures var b := RecordCreate(location, start, end);
      && b.kind == "range"
      && b.resolvedName.None? && b.lat.None? && b.lon.None? && b.resultPayload.None?
  {
  }

  /** An empty update leaves every field absent and asks for a refetch. */
  lemma UpdateDefaults()
    ensures var u := RecordUpdate();
      && u.inputLocation.None? && u.resolvedName.None? && u.kind.None?
      && u.startDate.None? && u.endDate.None? && u.refetch
  {
  }
}

=== FILE: text.dfy ===
/** String helpers with Python's meaning: `str.isspace`, `str.strip`, `sep.join(parts)`,
    and runs of one repeated character. */
module Text {

  /** Python's `str.isspace` for a single character: the ASCII blanks and controls
      9 to 13 and 28 to 31, and the Unicode space separators. */
  predicate IsSpace(c: char) {
    || c == ' '
    || ('\t' <= c <= '\r')
    || ('\U{1C}' <= c <= '\U{1F}')
    || c == '\U{85}' || c == '\U{A0}' || c == '\U{1680}'
    || ('\U{2000}' <= c <= '\U{200A}')
    || c == '\U{2028}' || c == '\U{2029}' || c == '\U{202F}' || c == '\U{205F}'
    || c == '\U{3000}'
  }

  /** `s.lstrip()`: the suffix of `s` left after its leading whitespace. */
  function TrimLeft(s: string): (r: string)
    ensures |r| <= |s| && r == s[|s| - |r|..]
    ensures forall k :: 0 <= k < |s| - |r| ==> IsSpace(s[k])
    ensures |r| > 0 ==> !IsSpace(r[0])
    decreases |s|
  {
    if |s| > 0 && IsSpace(s[0]) then TrimLeft(s[1..]) else s
  }

  /** `s.rstrip()`: the prefix of `s` left after its trailing whitespace. */
  function TrimRight(s: string): (r: string)
    ensures |r| <= |s| && r == s[..|r|]
    ensures forall k :: |r| <= k < |s| ==> IsSpace(s[k])
    ensures |r| > 0 ==> !IsSpace(r[|r| - 1])
    decreases |s|
  {
    if |s| > 0 && IsSpace(s[|s| - 1]) then TrimRight(s[..|s| - 1]) else s
  }

  /** `s.strip()`. */
  function Strip(s: string): (r: string)
    ensures |r| <= |s|
    ensures |r| > 0 ==> !IsSpace(r[0]) && !IsSpace(r[|r| - 1])
  {
    TrimRight(TrimLeft(s))
  }

  /** `Strip` removes exactly a whitespace prefix and a whitespace suffix: what is left
      is the piece of the input starting after its leading whitespace. */
  lemma StripIsInfix(s: string)
    ensures var i := |s| - |TrimLeft(s)|;
      && i + |Strip(s)| <= |s|
      && Strip(s) == s[i..i + |Strip(s)|]
      && (forall k :: 0 <= k < i ==> IsSpace(s[k]))
      && (forall k :: i + |Strip(s)| <= k < |s| ==> IsSpace(s[k]))
  {
    var l := TrimLeft(s);
    var i := |s| - |l|;
    var r := TrimRight(l);
    assert l == s[i..];
    forall k | i + |r| <= k < |s|
      ensures IsSpace(s[k])
    {
      assert s[k] == l[k - i];
    }
  }

  /** Stripping twice is stripping once. */
  lemma {:induction false} StripIdempotent(s: string)
    ensures Strip(Strip(s)) == Strip(s)
  {
    var r := Strip(s);
    assert TrimLeft(r) == r;
    if |r| > 0 {
      assert TrimRight(r) == r;
    }
  }

  /** `sep.join(parts)`. */
  function Join(sep: string, parts: seq<string>): string
    decreases |parts|
  {
    if |parts| == 0 then ""
    else if |parts| == 1 then parts[0]
    else parts[0] + sep + Join(sep, parts[1..])
  }

  function SumLengths(parts: seq<string>): nat
    decreases |parts|
  {
    if |parts| == 0 then 0 else |parts[0]| + SumLengths(parts[1..])
  }

  function Sum(xs: seq<nat>): nat
    decreases |xs|
  {
    if |xs| == 0 then 0 else xs[0] + Sum(xs[1..])
  }

  /** A joined string is as long as its parts plus one separator between each pair. */
  lemma {:induction false} JoinLength(sep: string, parts: seq<string>)
    requires |parts| >= 1
    ensures |Join(sep, parts)| == SumLengths(parts) + |sep| * (|parts| - 1)
    decreases |parts|
  {
    if |parts| > 1 {
      JoinLength(sep, parts[1..]);
    }
  }

  /** Joining two non-empty lists is joining each and gluing with one separator. */
  lemma {:induction false} JoinAppend(sep: string, a: seq<string>, b: seq<string>)
    requires |a| >= 1 && |b| >= 1
    ensures Join(sep, a + b) == Join(sep, a) + sep + Join(sep, b)
    decreases |a|
  {
    if |a| == 1 {
      assert (a + b)[1..] == b;
    } else {
      assert (a + b)[1..] == a[1..] + b;
      JoinAppend(sep, a[1..], b);
    }
  }

  /** A joined string begins with its first part and ends with its last. */
  lemma {:induction false} JoinEnds(sep: string, parts: seq<string>)
    requires |parts| >= 1
    ensures |parts[0]| <= |Join(sep, parts)|
    ensures Join(sep, parts)[..|parts[0]|] == parts[0]
    ensures |parts[|parts| - 1]| <= |Join(sep, parts)|
    ensures Join(sep, parts)[|Join(sep, parts)| - |parts[|parts| - 1]|..] == parts[|parts| - 1]
    decreases |parts|
  {
    if |parts| > 1 {
      JoinEnds(sep, parts[1..]);
      var rest := Join(sep, parts[1..]);
      var whole := parts[0] + sep + rest;
      assert whole[|whole| - |rest|..] == rest;
      assert whole[..|parts[0]|] == parts[0];
    }
  }

  /** Pointwise equal lengths give equal totals. */
  lemma {:induction false} SumLengthsOfWidths(parts: seq<string>, widths: seq<nat>)
    requires |parts| == |widths|
    requires forall i :: 0 <= i < |parts| ==> |parts[i]| == widths[i]
    ensures SumLengths(parts) == Sum(widths)
    decreases |parts|
  {
    if |parts| > 0 {
      SumLengthsOfWidths(parts[1..], widths[1..]);
    }
  }

  /** The number of newline characters in `s`; a text has one line more than that. */
  function Newlines(s: string): nat
    decreases |s|
  {
    if |s| == 0 then 0 else (if s[0] == '\n' then 1 else 0) + Newlines(s[1..])
  }

  lemma {:induction false} NewlinesAppend(a: string, b: string)
    ensures Newlines(a + b) == Newlines(a) + Newlines(b)
    decreases |a|
  {
    if |a| > 0 {
      assert (a + b)[1..] == a[1..] + b;
      NewlinesAppend(a[1..], b);
    } else {
      assert a + b == b;
    }
  }

  lemma {:induction false} NoNewlineChar(s: string)
    requires forall k :: 0 <= k < |s| ==> s[k] != '\n'
    ensures Newlines(s) == 0
    decreases |s|
  {
    if |s| > 0 {
      NewlinesAppend([s[0]], s[1..]);
      assert [s[0]] + s[1..] == s;
      NoNewlineChar(s[1..]);
    }
  }

  /** Joining single-line parts with newlines gives one line per part. */
  lemma {:induction false} JoinSingleLines(parts: seq<string>)
    requires |parts| >= 1
    requires forall i :: 0 <= i < |parts| ==> '\n' !in parts[i]
    ensures Newlines(Join("\n", parts)) == |parts| - 1
    decreases |parts|
  {
    NoNewlineChar(parts[0]);
    if |parts| > 1 {
      var rest := parts[1..];
      assert forall i :: 0 <= i < |rest| ==> rest[i] == parts[i + 1];
      JoinSingleLines(rest);
      NewlinesAppend(parts[0], "\n");
      NewlinesAppend(parts[0] + "\n", Join("\n", rest));
      assert Newlines("\n") == 1 by {
        assert "\n"[1..] == "";
      }
    }
  }

  /** `c * n`: the character `c` repeated `n` times. */
  function Repeat(c: char, n: nat): (r: string)
    ensures |r| == n
    ensures forall k :: 0 <= k < n ==> r[k] == c
  {
    seq(n, _ => c)
  }
}

=== FILE: weather_icons.dfy ===
/** The dashboard's weather-code table: WMO weather codes grouped into labelled
    icons, and the lookup that picks the first group holding a code. Icons are
    written as code points; `\U{FE0F}` is the emoji presentation selector. */
module WeatherIcons {

  datatype Entry = Entry(codes: set<int>, icon: string, caption: string)

  const WeatherMap: seq<Entry> := [
    Entry({0}, "\U{2600}\U{FE0F}", "Clear sky"),
    Entry({1, 2}, "\U{1F324}\U{FE0F}", "Mostly clear / Partly cloudy"),
    Entry({3}, "\U{2601}\U{FE0F}", "Overcast"),
    Entry({45, 48}, "\U{1F32B}\U{FE0F}", "Fog / Depositing rime fog"),
    Entry({51, 53, 55}, "\U{1F326}\U{FE0F}", "Drizzle"),
    Entry({56, 57}, "\U{1F327}\U{FE0F}", "Freezing drizzle"),
    Entry({61, 63, 65}, "\U{1F327}\U{FE0F}", "Rain"),
    Entry({66, 67}, "\U{1F327}\U{FE0F}\U{2744}\U{FE0F}", "Freezing rain"),
    Entry({71, 73, 75}, "\U{2744}\U{FE0F}", "Snowfall"),
    Entry({77}, "\U{1F328}\U{FE0F}", "Snow grains"),
    Entry({80, 81, 82}, "\U{1F327}\U{FE0F}\U{1F326}\U{FE0F}", "Rain showers"),
    Entry({85, 86}, "\U{1F328}\U{FE0F}", "Snow showers"),
    Entry({95}, "\U{26C8}\U{FE0F}", "Thunderstorm"),
    Entry({96, 97, 99}, "\U{26C8}\U{FE0F}\U{2744}\U{FE0F}", "Thunderstorm with hail")
  ]

  /** The answer for a code no entry holds: a question mark and "Unknown". */
  const Unknown: (string, string) := ("\U{2753}", "Unknown")

  /** No code belongs to two entries. */
  predicate Disjoint(entries: seq<Entry>) {
    forall i, j :: 0 <= i < j < |entries| ==> entries[i].codes !! entries[j].codes
  }

  /** The loop of `icon_and_label_from_code` over `entries`. */
  function Lookup(code: int, entries: seq<Entry>): (r: (string, string))
    ensures (forall i :: 0 <= i < |entries| ==> code !in entries[i].codes) ==> r == Unknown
    ensures forall i :: (0 <= i < |entries| && code in entries[i].codes
                         && (forall j :: 0 <= j < i ==> code !in entries[j].codes)) ==>
              r == (entries[i].icon, entries[i].caption)
    decreases |entries|
  {
    if |entries| == 0 then Unknown
    else if code in entries[0].codes then (entries[0].icon, entries[0].caption)
    else
      var r := Lookup(code, entries[1..]);
      assert forall i :: 1 <= i < |entries| ==> entries[1..][i - 1] == entries[i];
      r
  }

  /** `icon_and_label_from_code(code)`. */
  function IconAndLabel(code: int): (string, string) {
    Lookup(code, WeatherMap)
  }

  lemma {:induction false} LookupAnyMatch(code: int, entries: seq<Entry>, i: int)
    requires Disjoint(entries)
    requires 0 <= i < |entries| && code in entries[i].codes
    ensures Lookup(code, entries) == (entries[i].icon, entries[i].caption)
  {
    forall j | 0 <= j < i
      ensures code !in entries[j].codes
    {
      assert entries[j].codes !! entries[i].codes;
    }
  }

  /** Each entry's codes lie in its own band [starts[i], starts[i + 1]). */
  predicate Banded(entries: seq<Entry>, starts: seq<int>) {
    && |starts| == |entries| + 1
    && (forall i :: 0 <= i < |entries| ==> starts[i] < starts[i + 1])
    && (forall i, c :: 0 <= i < |entries| && c in entries[i].codes ==> starts[i] <= c < starts[i + 1])
  }

  lemma {:induction false} BandsAscend(entries: seq<Entry>, starts: seq<int>, i: int, j: int)
    requires Banded(entries, starts)
    requires 0 <= i < j < |starts|
    ensures starts[i] < starts[j]
    decreases j - i
  {
    if j > i + 1 {
      BandsAscend(entries, starts, i + 1, j);
    }
  }

  /** Entries in ascending bands share no code. */
  lemma BandedIsDisjoint(entries: seq<Entry>, starts: seq<int>)
    requires Banded(entries, starts)
    ensures Disjoint(entries)
  {
    forall i, j, c | 0 <= i < j < |entries| && c in entries[i].codes
      ensures c !in entries[j].codes
    {
      if j > i + 1 {
        BandsAscend(entries, starts, i + 1, j);
      }
    }
  }

  /** Where each entry's band of codes begins; the last number ends the final band. */
  const BandStarts: seq<int> := [0, 1, 3, 45, 51, 56, 61, 66, 71, 77, 80, 85, 95, 96, 100]

  /** What each literal entry of the table holds: codes inside its band and a caption
      other than "Unknown". The proof names every index in turn, so that the solver
      reads that one entry of the literal table instead of all fourteen at once. */
  lemma EntryInBand(i: int)
    requires 0 <= i < |WeatherMap|
    ensures forall c :: c in WeatherMap[i].codes ==> BandStarts[i] <= c < BandStarts[i + 1]
    ensures WeatherMap[i].caption != Unknown.1
  {
    if i == 0 {} else if i == 1 {} else if i == 2 {} else if i == 3 {} else if i == 4 {}
    else if i == 5 {} else if i == 6 {} else if i == 7 {} else if i == 8 {} else if i == 9 {}
    else if i == 10 {} else if i == 11 {} else if i == 12 {} else {}
  }

  lemma WeatherMapBanded()
    ensures Banded(WeatherMap, BandStarts)
  {
    forall i, c | 0 <= i < |WeatherMap| && c in WeatherMap[i].codes
      ensures BandStarts[i] <= c < BandStarts[i + 1]
    {
      EntryInBand(i);
    }
  }

  lemma WeatherMapDisjoint()
    ensures Disjoint(WeatherMap)
  {
    WeatherMapBanded();
    BandedIsDisjoint(WeatherMap, BandStarts);
  }

  /** Because the code groups are disjoint, the answer is the icon and caption of
      whichever entry holds the code, whatever the order of the table. */
  lemma IconOfAnyHoldingEntry(code: int, i: int)
    requires 0 <= i < |WeatherMap| && code in WeatherMap[i].codes
    ensures IconAndLabel(code) == (WeatherMap[i].icon, WeatherMap[i].caption)
  {
    WeatherMapDisjoint();
    LookupAnyMatch(code, WeatherMap, i);
  }

  /** The caption is "Unknown" exactly for codes outside every group. */
  lemma UnknownExactlyOutsideTable(code: int)
    ensures IconAndLabel(code).1 == "Unknown" <==> forall i :: 0 <= i < |WeatherMap| ==> code !in WeatherMap[i].codes
  {
    if i :| 0 <= i < |WeatherMap| && code in WeatherMap[i].codes {
      IconOfAnyHoldingEntry(code, i);
      EntryInBand(i);
    }
  }

  lemma IconExamples()
    ensures IconAndLabel(0).1 == "Clear sky"
    ensures IconAndLabel(95).1 == "Thunderstorm"
  {
    IconOfAnyHoldingEntry(0, 0);
    IconOfAnyHoldingEntry(95, 12);
  }

  /** Code 4 is in no group, so it shows the unknown icon. */
  lemma UnknownExample()
    ensures IconAndLabel(4) == Unknown
  {
    WeatherMapBanded();
    forall i | 0 <= i < |WeatherMap|
      ensures 4 !in WeatherMap[i].codes
    {
      if i > 3 {
        BandsAscend(WeatherMap, BandStarts, 3, i);
      }
    }
  }
}
